=== FILE: README.md ===
# NHL-vis in Dafny

NHL-vis collects NHL skater statistics and compares one team with the rest
of the league. It has three steps:

- **Cleaning.** A one-off script relabels the columns of the scraped export.
  It also turns season codes such as `20232024` into the year the season
  starts in (`2023`).
- **Player and roster look-ups.** These take one player's rows, or their
  career totals over chosen seasons. They also take a team's roster for a
  season, and the highlight labels and colours of the league scatter chart.
  The code exists in two packaged copies of `core.py`.
- **Team analyses.** For each metric, these compare the median over the
  team's rows with the median over a reference population: the whole
  league, all forwards, or one position. Two smaller pieces belong here: the
  NaN filter that precedes them, and the row selection behind the
  by-position scatter chart.

## How things are modelled

- **Table.** A table is a set of column names plus a sequence of rows
  (`Frame.Table`). A row has the player, team, position, handedness, season
  and a map from metric names to optional reals.
- **NaN.** A NaN cell is `None`, and so is a metric that is missing from a
  row's map.
- **Medians.** pandas skips NaN when it takes a median, and the median of
  nothing is NaN. `Stats.Median` does the same: it sorts the non-NaN values
  and returns the middle element, or the mean of the two middle elements.
- **Sums.** A sum counts NaN as zero.
- **Boolean masks.** Boolean-mask indexing is `Seqs.Filter`. It keeps row
  order (`Seqs.FilterKeepsOrder`) and multiplicity, and these two facts
  determine the selection (`Seqs.FilterUnique`).
- **Dictionaries.** Python dicts built by comprehension keep the first
  occurrence of each key (`Seqs.Dedup`), in the order those first
  occurrences appear (`Seqs.DedupFirstOccurrence`).
- **Errors.** Errors are values of `Frame.Error` in a `Result`:
  - `KeyError` for unknown columns;
  - the "No data found for position" error;
  - `IndexError` from `iloc[0]`;
  - the length mismatch from assigning `df.columns`;
  - the two failures of `astype(int)`.
- **The global table.** The source reads `df` from a CSV file at module
  level. Here it is an explicit parameter.
- **Column relabelling.** An export whose column count is not 26 is
  refused (`Cleaning.Rename`). With exactly 26 columns the relabelling goes
  by position, so a reordered export is mislabelled without any error
  (`Cleaning.RenameIsPositional`).
- **Row selections keep duplicates.** Every selection keeps each kept row
  as many times as the table holds it, because medians and sums count
  every copy.


## Model

| member | source | states |
|---|---|---|
| Seqs.FilterKeepsOrder | analysis.py:59 | a boolean-mask selection keeps the passing rows in the order the table holds them |
| Seqs.FilterUnique | analysis.py:128 | a boolean-mask selection is pinned down by two facts: it keeps the table's order, and it holds every passing row as often as the table does and no failing row |
| Seqs.DedupFirstOccurrence | analysis.py:163-167 | the keys of a dict built by comprehension are listed in the order of their first occurrence among the requested metrics |
| Analysis.TeamRows | analysis.py:59 | a row is kept exactly when its team equals the abbreviation, with every copy the table holds, and nothing else is kept. The kept rows stay in table order |
| Analysis.ForwardRows | analysis.py:128 | a row is kept exactly when its position is C, L or R, with every copy the table holds. The kept rows stay in table order |
| Analysis.PositionRows | analysis.py:158 | a row is kept exactly when its position equals the requested one, with every copy the table holds. The kept rows stay in table order |
| Analysis.Difference | analysis.py:67 | team minus league is defined exactly when both medians are, and adding the league median back gives the team median |
| Stats.Median | analysis.py:63-64 | the median of no values is NaN. Otherwise it lies between the smallest and largest value. With an odd count it is one of the values |
| Stats.MedianBalanced | analysis.py:63-64 | at most half of the values lie strictly below the median and at most half strictly above |
| Stats.MedianPermutation | analysis.py:63-64 | the median depends only on the multiset of values, not their order |
| Stats.MedianExamples | analysis.py:63-64 | medians of [10, 6], [10, 4, 6] and of nothing are 8, 6 and NaN |
| Frame.MissingColumns | analysis.py:63-64 | the list of unknown names is empty exactly when every requested metric is a column |
| Analysis.ComputeTeamGaps | analysis.py:57-68 | fails with `KeyError` naming every unknown metric exactly when one is requested. Otherwise it gives one line per metric: the median over the team's rows, the median over all rows (team included) and their difference |
| AnalysisProperties.UtahGoalsExample | analysis.py:57-68 | UTA goals 10 and 6 against an OTT 4 give team median 8, league median 6 and gap +2 |
| AnalysisProperties.TeamOnlyTableHasZeroGaps | analysis.py:59-60 | the league includes the team, so on a table of one team's rows every defined gap is 0 |
| AnalysisProperties.TeamGapsOrderIndependent | analysis.py:57-68 | permuting the rows of the table does not change any team gap |
| AnalysisProperties.MedianSkipsMissing | analysis.py:63-64 | dropping the rows that are NaN in a metric changes neither its values nor its median |
| Analysis.ComputeForwardGaps | analysis.py:126-141 | fails with `KeyError` for the first unknown metric exactly when there is one. Otherwise it gives one pair per distinct metric in first-request order, comparing the team's forwards with all forwards |
| AnalysisProperties.ForwardGapsIgnoreNonForwards | analysis.py:128-131 | restricting the table to forwards first does not change the forward gaps |
| AnalysisProperties.ForwardGapsIgnoreAppendedNonForwards | analysis.py:128-131 | appending defencemen or other non-forward rows does not change the forward gaps |
| AnalysisProperties.ForwardsAreCentresAndWings | analysis.py:128 | the forward rows are, as a multiset, the C rows plus the L rows plus the R rows |
| AnalysisProperties.ForwardGapsFollowRequest | analysis.py:133-141 | distinct, known metrics come back one pair each in the requested order |
| Analysis.ComputePositionGaps | analysis.py:156-172 | reports only requested names that are columns. Every such name appears once, in first-request order. Each gap compares the team's rows at the position with all rows at the position |
| AnalysisProperties.PositionGapsSkipUnknownMetrics | analysis.py:163-167 | an unknown metric is left out silently, and a known one appears exactly once even if requested twice |
| AnalysisProperties.PositionGapsAgreeWithForwardGaps | analysis.py:126-167 | on a table of one forward position, per-position gaps and forward-group gaps coincide |
| Analysis.DropNaMetric | analysis.py:187-188 | fails with `KeyError` naming every unknown metric exactly when one is requested. Otherwise it keeps the columns and keeps a row, with all its copies, exactly when it has a value for every listed metric. The kept rows stay in table order |
| AnalysisProperties.DropNaIdempotent | analysis.py:187-188 | applying the NaN filter twice equals applying it once |
| Analysis.ScatterSelection | analysis.py:102-105 | "F" selects exactly the C, L and R rows. Any other position selects exactly the rows with that position. Every copy of a selected row is kept. The kept rows stay in table order |
| Analysis.ScatterMetricByPosition | analysis.py:97-116 | an empty selection raises the no-data error before any column is looked up. A missing x column raises `KeyError` for x, even if y is also missing. Only with x present does a missing y raise `KeyError` for y. League points are the selected rows of other teams and team points are the selected rows of the team; together they are the whole selection |
| Core.NormalizeSeason | src/nhl_vis_386/core.py:21-26 | an omitted season means no filter. A list is used as given, and a scalar becomes a one-element list. The seasons asked for are exactly those the argument names |
| Core.SeasonFilter | src/NHL-vis/core.py:22-31 | keeps exactly the rows whose season was asked for, each as often as the table holds it. The kept rows stay in table order |
| Core.Selection | src/nhl_vis_386/core.py:15-30 | keeps exactly the player's rows in the requested seasons, each as often as the table holds it. The kept rows stay in table order |
| Core.GetPlayerStats | src/nhl_vis_386/core.py:15-41 | an unknown player gives an empty frame whatever the other arguments. With `aggr=False` it gives the selected rows. With `aggr=True` an empty selection fails at `iloc[0]`, and a non-empty one gives the totals |
| Core.Ratio | src/nhl_vis_386/core.py:55-67 | P/GP (line 55) is defined exactly when games played is positive, and then times games played it gives points. S% (line 67) follows the same rule with shots and goals |
| Core.MinSeason | src/nhl_vis_386/core.py:36 | the start of the span is a season of the selection and no later than any of them |
| Core.MaxSeason | src/nhl_vis_386/core.py:37 | the end of the span is a season of the selection and no earlier than any of them |
| Core.Aggregate | src/nhl_vis_386/core.py:35-67 | the totals row names the player. Its season cell is the first-to-last span. Its Team(s), S/C and Position cells are the sorted, comma-joined distinct values. It holds every counting stat, each the NaN-as-zero sum over the selection. P/GP and S% are the guarded ratios of those sums |
| CoreProperties.SelectionSumAdditive | src/nhl_vis_386/core.py:29-30 | over disjoint season lists, the sum of a stat over both lists is the sum over each |
| CoreProperties.TotalsAdditive | src/nhl_vis_386/core.py:47-67 | career totals over disjoint season lists add up: each counting stat over `a + b` is its total over `a` plus its total over `b` |
| CoreProperties.SeasonLabelRoundTrip | src/nhl_vis_386/core.py:38 | for non-negative seasons, the "start-end" label splits at the dash into two parts that `int()` reads back as start and end |
| CoreProperties.AggregateSeasonSpan | src/NHL-vis/core.py:37-39 | the season cell of the totals names the earliest and the latest selected season, in that order |
| CoreProperties.DistinctJoinedDecodes | src/nhl_vis_386/core.py:43-45 | when no value holds a comma, the joined cell splits back into the sorted distinct values |
| CoreProperties.DistinctJoinedSetOnly | src/nhl_vis_386/core.py:43-45 | the joined cell depends only on which values occur, not on their order or repetition |
| CoreProperties.JoinedCellLists | src/nhl_vis_386/core.py:43-45 | when no value holds a comma, a joined cell splits into a strictly sorted list holding every value and nothing else |
| CoreProperties.AggregateTeamsListed | src/NHL-vis/core.py:44 | the team cell lists each of the player's teams once, in sorted order, and nothing else |
| CoreProperties.AggregateShootsListed | src/NHL-vis/core.py:45 | the S/C cell lists each handedness of the player's rows once, in sorted order, and nothing else |
| CoreProperties.AggregatePositionsListed | src/NHL-vis/core.py:46 | the Position cell lists each position of the player's rows once, in sorted order, and nothing else |
| Text.SortUnique | src/nhl_vis_386/core.py:43 | the result is strictly sorted in Python string order and holds exactly the input's values |
| Text.Contains | src/nhl_vis_386/core.py:114 | true exactly when the needle occurs as a contiguous substring |
| Core.GetRosterStats | src/nhl_vis_386/core.py:104-117 | keeps exactly the rows of the season whose upper-cased team contains the upper-cased argument as a literal substring, each as often as the table holds it. The kept rows stay in table order |
| CoreProperties.RosterCaseInsensitive | src/NHL-vis/core.py:115 | two team arguments that agree after upper-casing give the same roster |
| CoreProperties.RosterExactTeamIncluded | src/nhl_vis_386/core.py:114-115 | every row of exactly the named team in that season is on the roster |
| CoreProperties.RosterEmptyTeam | src/nhl_vis_386/core.py:114-115 | an empty team argument matches every team, so the roster is the whole season |
| Core.Classify | src/NHL-vis/core.py:169-177 | a row is in the combined group exactly when it matches both player and team, in the player group exactly when it matches the player but not the team, and so on. An omitted player or team matches nothing |
| Core.Highlights | src/nhl_vis_386/core.py:163-180 | one label per row of the requested season (every row when none is given), each the label of that row's player and team |
| Core.SeasonRows | src/NHL-vis/core.py:165-168 | keeps exactly the rows of the given season, or every row when none is given, each as often as the table holds it. The kept rows stay in table order |
| Core.ColorMap | src/nhl_vis_386/core.py:182-196 | "Other" is blue when neither player nor team is given and light grey otherwise. The team is blue unless it is called "Other". The player is red unless the player is called "Other" or equals the team. The combined label is purple. The map has exactly these keys: the given player, the given team, the combined label when both are given, and "Other" |
| CoreProperties.CombinedNotOther | src/nhl_vis_386/core.py:191-193 | the combined label never coincides with "Other", so the grey entry cannot overwrite purple |
| CoreProperties.EveryHighlightHasColour | src/nhl_vis_386/core.py:167-196 | every label a row can receive has an entry in the colour map |
| CoreProperties.HighlightColour | src/nhl_vis_386/core.py:167-196 | both-match rows are purple. Player rows are red and team rows blue, except where a name collides as described for the colour map. Other rows are grey, or blue when nothing is highlighted |
| Text.ParseInt | cleaning.py:10 | on ASCII text, `int()` succeeds exactly on an optional sign followed by one or more decimal digits |
| Text.IntRoundTrip | cleaning.py:10 | `int(str(i)) == i` for every integer |
| Cleaning.Rename | cleaning.py:5-8 | fails with a length mismatch exactly when the export does not have 26 columns. Otherwise the labels become the canonical names and the cells are untouched |
| Cleaning.RenameIsPositional | cleaning.py:8 | the old header names play no part: equal counts and equal cells give the same relabelled table |
| Cleaning.Extract | cleaning.py:10 | NaN exactly when no eight-character window without a line break exists. Otherwise it gives the first four characters of the leftmost such window |
| Cleaning.SeasonYear | cleaning.py:10 | NaN-to-integer failure exactly when the printed cell has no match. Otherwise it is the integer parsed from the first four characters of the leftmost match, or an invalid-literal failure that carries that four-character group. When that group is an integer literal, the conversion succeeds |
| Cleaning.CleanRows | cleaning.py:10 | succeeds exactly when every Season cell converts, and then replaces only that cell of each row. A failure carries the error of the first row that does not convert |
| Cleaning.Clean | cleaning.py:5-10 | a wrong column count fails first. Otherwise it succeeds exactly when every Season cell converts, and then the header is canonical, the Season cell of every row is its year and every other cell is unchanged. A failure carries the error of the first Season cell that does not convert |
| Cleaning.EightDigitSeason | cleaning.py:10 | an eight-digit code becomes the code divided by 10000 (its first four digits), whether or not NaN cells make the column print as floats |
| Cleaning.SeasonTextExamples | cleaning.py:10 | "20232024" and "2023-2024" both give 2023, and an empty cell fails |
| Cleaning.ShortSeasonFails | cleaning.py:10 | a cell printing shorter than eight characters fails as NaN |
| Cleaning.CleanedYearFailsAgain | cleaning.py:10 | a four-digit year fails, so the script cannot be applied to its own output |
| Cleaning.CleanKeepsOtherColumns | cleaning.py:5-10 | a successful clean leaves every column other than Season unchanged, row by row |

## Left out

- **Scraper.** `NHL_scrape.py` is not part of this model: the network, paging and CSV writing.
- **File access.** Reading and writing CSV files, including the module-level `df` of `core.py`. The table is a parameter instead.
- **Charts.** Every plotting and `show`/`savefig` call, including the plotted figure of `scatter_metric_by_position`. The model stops at the two point clouds.
- **Point sizes.** The scaling of point sizes by games played in `score_scatter`. It is presentation-only floating point, and it divides by zero when all GP are equal.
- **`score_plot`.** It prints and plots, and returns nothing.
- **Means in the totals.** The `TOI/GP` and `FOW%` means in the aggregated row of `get_player_stats`. They are averages of possibly-NaN floats and are not a sum or a median.
- **Floating point.** Values are mathematical reals. Rounding, infinities and NaN propagation inside arithmetic are not modelled; NaN is only "no value".
- Analysis.DropNaMetric, Analysis.ComputeTeamGaps, Analysis.ComputeForwardGaps and Analysis.ComputePositionGaps read every requested name from a row's metric map. They never read it from the row's Player, Team, Pos, S/C or Season field, so the model assumes none of those five is requested as a metric. In the source `dropna_metric(df, ["Team"])` keeps every row that has a team. A gap over "Season" takes medians of the numeric season, and one over a text column raises `TypeError`.
- **Unicode case.** Upper-casing covers ASCII letters only, not Unicode case mapping.
- Text.ParseInt: accepts ASCII digits only. Python's `int()` also accepts any Unicode decimal digit (so "２０２３" gives 2023), surrounding whitespace and digit-grouping underscores. The model rejects all three. A Season cell in a non-ASCII script is not expected from the export.
- **Cell types.** The export's cells are text, whole numbers or empty. A Season column of genuine floats is not modelled, nor cells that are neither.
- **Repeated metrics.** `compute_team_gaps` with a metric listed twice is modelled as one line per listed name. pandas' handling of the resulting duplicate index is not pinned down here.
- Core.Aggregate: P/GP and S% are stated through `Core.Ratio`, which carries the guard and the product. The sums are NaN-as-zero totals, so a player with only NaN games has GP 0 and no P/GP.
- CoreProperties.SeasonLabelRoundTrip: proved for non-negative seasons only, because a negative season would put a second dash into the label. CoreProperties.AggregateSeasonSpan carries the same non-negative requirement for the same reason.
- Core.GetPlayerStats and Core.Aggregate take rows, not a table with a column set. They assume the cleaned table has all its columns: Player, Season, Team, S/C, Pos, every summed stat, TOI/GP and FOW%. In the source a table missing any of these raises `KeyError`. In the model a missing stat reads as NaN and sums to 0.
- Analysis.ComputeTeamGaps, Analysis.ComputeForwardGaps, Analysis.ComputePositionGaps and Analysis.ScatterMetricByPosition also assume the Team and Pos columns are present. Only the requested metric names are looked up in the column set.

=== FILE: analysis.dfy ===
/** Team-versus-league comparisons on the cleaned table: the median of a
    team's rows against the median of a reference population, per metric,
    optionally restricted to one position or to all forwards; the NaN
    filter that precedes them; and the row selection behind the scatter
    chart.
 */
module Analysis {
  import opened Wrappers
  import opened Frame
  import Seqs
  import Stats

  /** The forward group: centres, left wings and right wings. */
  predicate IsForward(pos: string) {
    pos == "C" || pos == "L" || pos == "R"
  }

  function TeamMask(team: string): Row -> bool {
    (r: Row) => r.team == team
  }

  function ForwardMask(): Row -> bool {
    (r: Row) => IsForward(r.pos)
  }

  function PositionMask(pos: string): Row -> bool {
    (r: Row) => r.pos == pos
  }

  /** `df[df["Team"] == team]`: the rows whose team is exactly `team`. */
  function TeamRows(rows: seq<Row>, team: string): (r: seq<Row>)
    ensures forall i :: 0 <= i < |r| ==> r[i] in rows && r[i].team == team
    ensures forall i :: 0 <= i < |rows| && rows[i].team == team ==> rows[i] in r
    ensures forall x :: multiset(r)[x] == if x.team == team then multiset(rows)[x] else 0
    ensures Seqs.Subsequence(r, rows)
  {
    Seqs.FilterKeepsOrder(rows, TeamMask(team));
    Seqs.Filter(rows, TeamMask(team))
  }

  /** `df[df["Pos"].isin(["C", "L", "R"])]`. */
  function ForwardRows(rows: seq<Row>): (r: seq<Row>)
    ensures forall i :: 0 <= i < |r| ==> r[i] in rows && IsForward(r[i].pos)
    ensures forall i :: 0 <= i < |rows| && IsForward(rows[i].pos) ==> rows[i] in r
    ensures forall x :: multiset(r)[x] == if IsForward(x.pos) then multiset(rows)[x] else 0
    ensures Seqs.Subsequence(r, rows)
  {
    Seqs.FilterKeepsOrder(rows, ForwardMask());
    Seqs.Filter(rows, ForwardMask())
  }

  /** `df[df["Pos"] == pos]`. */
  function PositionRows(rows: seq<Row>, pos: string): (r: seq<Row>)
    ensures forall i :: 0 <= i < |r| ==> r[i] in rows && r[i].pos == pos
    ensures forall i :: 0 <= i < |rows| && rows[i].pos == pos ==> rows[i] in r
    ensures forall x :: multiset(r)[x] == if x.pos == pos then multiset(rows)[x] else 0
    ensures Seqs.Subsequence(r, rows)
  {
    Seqs.FilterKeepsOrder(rows, PositionMask(pos));
    Seqs.Filter(rows, PositionMask(pos))
  }

  /** `rows[m].median()`: NaN cells skipped, NaN when nothing is left. */
  function ColumnMedian(rows: seq<Row>, m: string): Option<real> {
    Stats.Median(Values(rows, m))
  }

  /** Subtraction of two possibly-NaN values: NaN if either side is. */
  function Difference(a: Option<real>, b: Option<real>): (d: Option<real>)
    ensures d.Some? <==> a.Some? && b.Some?
    ensures d.Some? ==> d.value + b.value == a.value
  {
    if a.Some? && b.Some? then Some(a.value - b.value) else None
  }

  /** One line of `compute_team_gaps`' result. */
  datatype TeamGap = TeamGap(metric: string, teamMedian: Option<real>, leagueMedian: Option<real>, gap: Option<real>)

  /** One (metric, gap) pair of `compute_forward_gaps` / `compute_position_gaps`. */
  datatype MetricGap = MetricGap(metric: string, gap: Option<real>)

  /** `compute_team_gaps`: per requested metric, the median over the team's
      rows, the median over the whole table (the team's rows included), and
      team minus league. Any requested name that is not a column raises
      `KeyError` naming all such names. */
  function ComputeTeamGaps(t: Table, team: string, metrics: seq<string>): (r: Result<seq<TeamGap>, Error>)
    ensures r.Failure? <==> exists k :: 0 <= k < |metrics| && metrics[k] !in t.columns
    ensures r.Failure? ==> r.error == KeyError(MissingColumns(t.columns, metrics))
    ensures r.Success? ==> |r.value| == |metrics|
    ensures r.Success? ==> forall k :: 0 <= k < |metrics| ==>
      && r.value[k].metric == metrics[k]
      && r.value[k].teamMedian == ColumnMedian(TeamRows(t.rows, team), metrics[k])
      && r.value[k].leagueMedian == ColumnMedian(t.rows, metrics[k])
      && r.value[k].gap == Difference(r.value[k].teamMedian, r.value[k].leagueMedian)
  {
    var missing := MissingColumns(t.columns, metrics);
    if |missing| > 0 then Failure(KeyError(missing))
    else
      var teamRows := TeamRows(t.rows, team);
      Success(seq(|metrics|, k requires 0 <= k < |metrics| =>
        var tm := ColumnMedian(teamRows, metrics[k]);
        var lm := ColumnMedian(t.rows, metrics[k]);
        TeamGap(metrics[k], tm, lm, Difference(tm, lm))))
  }

  /** One (metric, team − reference) pair per listed metric, in order. */
  function GapList(teamRows: seq<Row>, reference: seq<Row>, metrics: seq<string>): (r: seq<MetricGap>)
    ensures |r| == |metrics|
    ensures forall k :: 0 <= k < |metrics| ==> r[k].metric == metrics[k]
    ensures forall k :: 0 <= k < |metrics| ==>
      r[k].gap == Difference(ColumnMedian(teamRows, metrics[k]), ColumnMedian(reference, metrics[k]))
  {
    seq(|metrics|, k requires 0 <= k < |metrics| =>
      MetricGap(metrics[k], Difference(ColumnMedian(teamRows, metrics[k]), ColumnMedian(reference, metrics[k]))))
  }

  /** The metrics of a gap list. */
  function MetricNames(gaps: seq<MetricGap>): (names: seq<string>)
    ensures |names| == |gaps|
    ensures forall k :: 0 <= k < |gaps| ==> names[k] == gaps[k].metric
  {
    seq(|gaps|, k requires 0 <= k < |gaps| => gaps[k].metric)
  }

  /** `compute_forward_gaps`: the reference population is every forward (the
      team's included) and the team subset is drawn from the forwards. The
      result is a dict, so a metric listed twice yields one pair, at its
      first position. The first listed name that is not a column raises
      `KeyError`. */
  function ComputeForwardGaps(t: Table, team: string, metrics: seq<string>): (r: Result<seq<MetricGap>, Error>)
    ensures r.Failure? <==> exists k :: 0 <= k < |metrics| && metrics[k] !in t.columns
    ensures r.Failure? ==> r.error == KeyError([MissingColumns(t.columns, metrics)[0]])
    ensures r.Success? ==> MetricNames(r.value) == Seqs.Dedup(metrics)
    ensures r.Success? ==> forall k :: 0 <= k < |r.value| ==>
      r.value[k].gap == Difference(
        ColumnMedian(TeamRows(ForwardRows(t.rows), team), r.value[k].metric),
        ColumnMedian(ForwardRows(t.rows), r.value[k].metric))
  {
    var missing := MissingColumns(t.columns, metrics);
    if |missing| > 0 then Failure(KeyError([missing[0]]))
    else
      var forwards := ForwardRows(t.rows);
      Success(GapList(TeamRows(forwards, team), forwards, Seqs.Dedup(metrics)))
  }

  /** The distinct requested names that are columns, in first-request
      order. */
  function KnownNames(columns: set<string>, metrics: seq<string>): seq<string> {
    Seqs.Dedup(Seqs.Filter(metrics, ColumnMask(columns)))
  }

  /** Each known name is a column and was requested. */
  lemma KnownNamesAreColumns(columns: set<string>, metrics: seq<string>)
    ensures forall k :: 0 <= k < |KnownNames(columns, metrics)| ==>
      KnownNames(columns, metrics)[k] in columns && KnownNames(columns, metrics)[k] in metrics
  {
    Seqs.DedupFilterPasses(metrics, ColumnMask(columns));
    forall k | 0 <= k < |KnownNames(columns, metrics)|
      ensures KnownNames(columns, metrics)[k] in columns
    {
      assert ColumnMask(columns)(KnownNames(columns, metrics)[k]);
    }
  }

  /** Every requested column is a known name. */
  lemma RequestedColumnsKnown(columns: set<string>, metrics: seq<string>)
    ensures forall k :: 0 <= k < |metrics| && metrics[k] in columns ==> metrics[k] in KnownNames(columns, metrics)
  {
    Seqs.DedupFilterKeeps(metrics, ColumnMask(columns));
    forall k | 0 <= k < |metrics| && metrics[k] in columns
      ensures metrics[k] in KnownNames(columns, metrics)
    {
      assert ColumnMask(columns)(metrics[k]);
    }
  }

  /** `compute_position_gaps`: exact position match, the position's rows as
      the reference population, and requested names that are not columns
      silently left out. */
  function ComputePositionGaps(t: Table, team: string, pos: string, metrics: seq<string>): (r: seq<MetricGap>)
    ensures forall k :: 0 <= k < |r| ==> r[k].metric in t.columns && r[k].metric in metrics
    ensures forall k :: 0 <= k < |metrics| && metrics[k] in t.columns ==> metrics[k] in MetricNames(r)
    ensures Seqs.NoDuplicates(MetricNames(r))
    ensures MetricNames(r) == Seqs.Dedup(Seqs.Filter(metrics, ColumnMask(t.columns)))
    ensures forall k :: 0 <= k < |r| ==>
      r[k].gap == Difference(
        ColumnMedian(TeamRows(PositionRows(t.rows, pos), team), r[k].metric),
        ColumnMedian(PositionRows(t.rows, pos), r[k].metric))
  {
    var names := KnownNames(t.columns, metrics);
    var atPos := PositionRows(t.rows, pos);
    var r := GapList(TeamRows(atPos, team), atPos, names);
    GapListNames(TeamRows(atPos, team), atPos, names);
    KnownNamesAreColumns(t.columns, metrics);
    RequestedColumnsKnown(t.columns, metrics);
    r
  }

  /** A gap list reports exactly the listed metrics, in order. */
  lemma GapListNames(teamRows: seq<Row>, reference: seq<Row>, metrics: seq<string>)
    ensures MetricNames(GapList(teamRows, reference, metrics)) == metrics
  {
    assert forall k :: 0 <= k < |metrics| ==> MetricNames(GapList(teamRows, reference, metrics))[k] == metrics[k];
  }

  /** `dropna_metric`: keep the rows that have a value for every listed
      metric; a listed name that is not a column raises `KeyError`. */
  function DropNaMetric(t: Table, metrics: seq<string>): (r: Result<Table, Error>)
    ensures r.Failure? <==> exists k :: 0 <= k < |metrics| && metrics[k] !in t.columns
    ensures r.Failure? ==> r.error == KeyError(MissingColumns(t.columns, metrics))
    ensures r.Success? ==> r.value.columns == t.columns
    ensures r.Success? ==> forall i :: 0 <= i < |r.value.rows| ==>
      r.value.rows[i] in t.rows && HasAll(r.value.rows[i], metrics)
    ensures r.Success? ==> forall i :: 0 <= i < |t.rows| && HasAll(t.rows[i], metrics) ==>
      t.rows[i] in r.value.rows
    ensures r.Success? ==> forall x :: multiset(r.value.rows)[x] == if HasAll(x, metrics) then multiset(t.rows)[x] else 0
    ensures r.Success? ==> Seqs.Subsequence(r.value.rows, t.rows)
  {
    var missing := MissingColumns(t.columns, metrics);
    if |missing| > 0 then Failure(KeyError(missing))
    else
      Seqs.FilterKeepsOrder(t.rows, (row: Row) => HasAll(row, metrics));
      Success(Table(t.columns, Seqs.Filter(t.rows, (row: Row) => HasAll(row, metrics))))
  }

  /** A row at `pos` is plotted for the requested `position`: "F" stands
      for every forward, any other value for itself. */
  predicate Plotted(position: string, pos: string) {
    if position == "F" then IsForward(pos) else pos == position
  }

  /** The rows `scatter_metric_by_position` plots: all forwards for "F",
      otherwise an exact position match. */
  function ScatterSelection(rows: seq<Row>, position: string): (r: seq<Row>)
    ensures forall i :: 0 <= i < |r| ==> r[i] in rows
    ensures forall i :: 0 <= i < |rows| ==>
      (rows[i] in r <==> Plotted(position, rows[i].pos))
    ensures forall x :: multiset(r)[x] == if Plotted(position, x.pos) then multiset(rows)[x] else 0
    ensures Seqs.Subsequence(r, rows)
  {
    if position == "F" then ForwardRows(rows) else PositionRows(rows, position)
  }

  /** The two point clouds of the scatter chart. */
  datatype ScatterData = ScatterData(league: seq<Row>, team: seq<Row>)

  /** `scatter_metric_by_position` up to the plotting calls: an empty
      selection raises the "No data found for position" error, and only then
      are the two plotted columns looked up. */
  function ScatterMetricByPosition(t: Table, team: string, position: string, x: string, y: string): (r: Result<ScatterData, Error>)
    ensures |ScatterSelection(t.rows, position)| == 0 ==> r == Failure(NoDataForPosition(position))
    ensures |ScatterSelection(t.rows, position)| > 0 ==>
      (r.Success? <==> x in t.columns && y in t.columns)
    ensures |ScatterSelection(t.rows, position)| > 0 && x !in t.columns ==> r == Failure(KeyError([x]))
    ensures |ScatterSelection(t.rows, position)| > 0 && x in t.columns && y !in t.columns ==>
      r == Failure(KeyError([y]))
    ensures r.Success? ==> forall i :: 0 <= i < |r.value.league| ==> r.value.league[i].team != team
    ensures r.Success? ==> forall i :: 0 <= i < |r.value.team| ==> r.value.team[i].team == team
    ensures r.Success? ==>
      multiset(r.value.league) + multiset(r.value.team) == multiset(ScatterSelection(t.rows, position))
  {
    var selected := ScatterSelection(t.rows, position);
    if |selected| == 0 then Failure(NoDataForPosition(position))
    else if x !in t.columns then Failure(KeyError([x]))
    else if y !in t.columns then Failure(KeyError([y]))
    else
      var league := Seqs.Filter(selected, (r: Row) => r.team != team);
      var own := TeamRows(selected, team);
      Seqs.FilterPartition(selected, TeamMask(team), (r: Row) => r.team != team);
      Success(ScatterData(league, own))
  }
}

=== FILE: analysis_properties.dfy ===
/** Properties of the team/position gap computations that relate several
    calls or hold for all tables.
 */
module AnalysisProperties {
  import opened Wrappers
  import opened Frame
  import opened Analysis
  import Seqs
  import Stats

  /** The worked example: UTA rows with G = 10 and G = 6 and an OTT row with
      G = 4 give a team median of 8, a league median of 6 (the UTA rows
      count towards the league) and a gap of +2. */
  lemma UtahGoalsExample()
    ensures ComputeTeamGaps(Table({"G"}, ExampleRows()), "UTA", ["G"])
         == Success([TeamGap("G", Some(8.0), Some(6.0), Some(2.0))])
  {
    ExampleMedians();
    SingleMetricTeamGap(Table({"G"}, ExampleRows()), "UTA", "G");
  }

  /** A request for one metric that is a column yields exactly one line. */
  lemma SingleMetricTeamGap(t: Table, team: string, m: string)
    requires m in t.columns
    ensures ComputeTeamGaps(t, team, [m]) == Success([TeamGap(m,
      ColumnMedian(TeamRows(t.rows, team), m), ColumnMedian(t.rows, m),
      Difference(ColumnMedian(TeamRows(t.rows, team), m), ColumnMedian(t.rows, m)))])
  {
    var r := ComputeTeamGaps(t, team, [m]);
    var tm := ColumnMedian(TeamRows(t.rows, team), m);
    var lm := ColumnMedian(t.rows, m);
    assert |MissingColumns(t.columns, [m])| == 0;
    assert r.Success? && |r.value| == 1;
    assert r.value[0] == TeamGap(m, tm, lm, Difference(tm, lm));
    assert r.value == [TeamGap(m, tm, lm, Difference(tm, lm))];
  }

  function ExampleRows(): seq<Row> {
    [ Row("A", "UTA", "C", "L", 2024, map["G" := Some(10.0)]),
      Row("B", "OTT", "C", "L", 2024, map["G" := Some(4.0)]),
      Row("C", "UTA", "C", "R", 2024, map["G" := Some(6.0)]) ]
  }

  lemma ExampleMedians()
    ensures ColumnMedian(TeamRows(ExampleRows(), "UTA"), "G") == Some(8.0)
    ensures ColumnMedian(ExampleRows(), "G") == Some(6.0)
  {
    ExampleTeamRows();
    ExampleValues();
    Stats.MedianExamples();
  }

  lemma ExampleTeamRows()
    ensures TeamRows(ExampleRows(), "UTA") == [ExampleRows()[0], ExampleRows()[2]]
  {
    var rows := ExampleRows();
    var uta1, ott, uta2 := rows[0], rows[1], rows[2];
    assert rows[1..] == [ott, uta2] && rows[1..][1..] == [uta2] && [uta2][1..] == [];
    assert Seqs.Filter([uta2], TeamMask("UTA")) == [uta2];
    assert Seqs.Filter([ott, uta2], TeamMask("UTA")) == [uta2];
  }

  lemma ExampleValues()
    ensures Values([ExampleRows()[0], ExampleRows()[2]], "G") == [10.0, 6.0]
    ensures Values(ExampleRows(), "G") == [10.0, 4.0, 6.0]
  {
    var rows := ExampleRows();
    var uta1, ott, uta2 := rows[0], rows[1], rows[2];
    assert rows[1..] == [ott, uta2] && rows[1..][1..] == [uta2] && [uta2][1..] == [];
    assert [uta1, uta2][1..] == [uta2];
    assert Values([uta2], "G") == [6.0];
    assert Values([uta1, uta2], "G") == [10.0, 6.0];
    assert Values([ott, uta2], "G") == [4.0, 6.0];
  }

  /** The league population includes the team: on a table holding only the
      team's rows, every defined gap is zero. */
  lemma TeamOnlyTableHasZeroGaps(t: Table, team: string, metrics: seq<string>)
    requires forall i :: 0 <= i < |t.rows| ==> t.rows[i].team == team
    requires ComputeTeamGaps(t, team, metrics).Success?
    ensures forall g :: g in ComputeTeamGaps(t, team, metrics).value ==> g.gap.None? || g.gap == Some(0.0)
  {
    var r := ComputeTeamGaps(t, team, metrics);
    OneTeamRows(t.rows, team);
    forall g | g in r.value
      ensures g.gap.None? || g.gap == Some(0.0)
    {
      var k :| 0 <= k < |r.value| && r.value[k] == g;
      assert g.teamMedian == ColumnMedian(t.rows, metrics[k]) == g.leagueMedian;
      assert g.gap == Difference(g.teamMedian, g.teamMedian);
      DifferenceSelf(g.teamMedian);
    }
  }

  /** A median compared with itself gives no gap. */
  lemma DifferenceSelf(a: Option<real>)
    ensures Difference(a, a).None? || Difference(a, a) == Some(0.0)
  {
  }

  /** On a table of one team's rows, the team's rows are the whole table. */
  lemma OneTeamRows(rows: seq<Row>, team: string)
    requires forall i :: 0 <= i < |rows| ==> rows[i].team == team
    ensures TeamRows(rows, team) == rows
  {
    Seqs.FilterAll(rows, TeamMask(team));
  }

  /** The gaps do not depend on the order of the table's rows. */
  lemma TeamGapsOrderIndependent(t: Table, u: Table, team: string, metrics: seq<string>)
    requires u.columns == t.columns
    requires multiset(u.rows) == multiset(t.rows)
    ensures ComputeTeamGaps(u, team, metrics) == ComputeTeamGaps(t, team, metrics)
  {
    var a := ComputeTeamGaps(u, team, metrics);
    var b := ComputeTeamGaps(t, team, metrics);
    if a.Success? {
      assert b.Success? && |a.value| == |b.value|;
      forall k | 0 <= k < |metrics|
        ensures a.value[k] == b.value[k]
      {
        MediansOrderIndependent(u.rows, t.rows, team, metrics[k]);
      }
      assert a.value == b.value;
    }
  }

  lemma MediansOrderIndependent(a: seq<Row>, b: seq<Row>, team: string, m: string)
    requires multiset(a) == multiset(b)
    ensures ColumnMedian(a, m) == ColumnMedian(b, m)
    ensures ColumnMedian(TeamRows(a, team), m) == ColumnMedian(TeamRows(b, team), m)
  {
    ValuesPermutation(a, b, m);
    Stats.MedianPermutation(Values(a, m), Values(b, m));
    Seqs.FilterPermutation(a, b, TeamMask(team));
    ValuesPermutation(TeamRows(a, team), TeamRows(b, team), m);
    Stats.MedianPermutation(Values(TeamRows(a, team), m), Values(TeamRows(b, team), m));
  }

  /** Medians skip NaN: dropping the rows that are NaN in `m` leaves the
      median of `m` unchanged, so a row missing one metric still counts for
      every other. */
  lemma {:induction false} MedianSkipsMissing(rows: seq<Row>, m: string)
    ensures Values(Seqs.Filter(rows, (r: Row) => Value(r, m).Some?), m) == Values(rows, m)
    ensures ColumnMedian(Seqs.Filter(rows, (r: Row) => Value(r, m).Some?), m) == ColumnMedian(rows, m)
    decreases |rows|
  {
    if |rows| > 0 {
      MedianSkipsMissing(rows[1..], m);
    }
  }

  /** Non-forward rows never contribute to `compute_forward_gaps`: removing
      every defenceman (or any other non-forward row) leaves the result
      unchanged. */
  lemma ForwardGapsIgnoreNonForwards(t: Table, team: string, metrics: seq<string>)
    ensures ComputeForwardGaps(Table(t.columns, ForwardRows(t.rows)), team, metrics)
         == ComputeForwardGaps(t, team, metrics)
  {
    Seqs.FilterIdempotent(t.rows, ForwardMask());
  }

  /** Appending non-forward rows to a table does not change its forward gaps. */
  lemma ForwardGapsIgnoreAppendedNonForwards(t: Table, extra: seq<Row>, team: string, metrics: seq<string>)
    requires forall i :: 0 <= i < |extra| ==> !IsForward(extra[i].pos)
    ensures ComputeForwardGaps(Table(t.columns, t.rows + extra), team, metrics)
         == ComputeForwardGaps(t, team, metrics)
  {
    Seqs.FilterConcat(t.rows, extra, ForwardMask());
    NoForwards(extra);
    assert ForwardRows(t.rows + extra) == ForwardRows(t.rows);
  }

  lemma {:induction false} NoForwards(rows: seq<Row>)
    requires forall i :: 0 <= i < |rows| ==> !IsForward(rows[i].pos)
    ensures ForwardRows(rows) == []
    decreases |rows|
  {
    if |rows| > 0 {
      NoForwards(rows[1..]);
    }
  }

  /** The forward group is exactly the union of the C, L and R rows. */
  lemma ForwardsAreCentresAndWings(rows: seq<Row>)
    ensures multiset(ForwardRows(rows))
         == multiset(PositionRows(rows, "C")) + multiset(PositionRows(rows, "L")) + multiset(PositionRows(rows, "R"))
  {
    forall x
      ensures multiset(ForwardRows(rows))[x]
           == (multiset(PositionRows(rows, "C")) + multiset(PositionRows(rows, "L")) + multiset(PositionRows(rows, "R")))[x]
    {
    }
  }

  /** With distinct metric names that are all columns, `compute_forward_gaps`
      reports one pair per requested metric, in the requested order. */
  lemma ForwardGapsFollowRequest(t: Table, team: string, metrics: seq<string>)
    requires Seqs.NoDuplicates(metrics)
    requires forall k :: 0 <= k < |metrics| ==> metrics[k] in t.columns
    ensures ComputeForwardGaps(t, team, metrics).Success?
    ensures MetricNames(ComputeForwardGaps(t, team, metrics).value) == metrics
  {
  }

  /** On a table whose rows all play one forward position, the per-position
      gaps for that position and the forward-group gaps agree. */
  lemma PositionGapsAgreeWithForwardGaps(t: Table, team: string, pos: string, metrics: seq<string>)
    requires IsForward(pos)
    requires forall i :: 0 <= i < |t.rows| ==> t.rows[i].pos == pos
    requires Seqs.NoDuplicates(metrics)
    requires forall k :: 0 <= k < |metrics| ==> metrics[k] in t.columns
    ensures ComputeForwardGaps(t, team, metrics) == Success(ComputePositionGaps(t, team, pos, metrics))
  {
    Seqs.FilterAll(t.rows, ForwardMask());
    Seqs.FilterAll(t.rows, PositionMask(pos));
    Seqs.FilterAll(metrics, ColumnMask(t.columns));
    assert ForwardRows(t.rows) == t.rows && PositionRows(t.rows, pos) == t.rows;
    var gaps := GapList(TeamRows(t.rows, team), t.rows, Seqs.Dedup(metrics));
    assert |MissingColumns(t.columns, metrics)| == 0;
    assert ComputeForwardGaps(t, team, metrics) == Success(gaps);
    assert ComputePositionGaps(t, team, pos, metrics) == gaps;
  }

  /** `compute_position_gaps` never reports a name that is not a column of
      the table, and reports each requested column once. */
  lemma PositionGapsSkipUnknownMetrics(t: Table, team: string, pos: string, metrics: seq<string>, m: string)
    requires m in metrics
    ensures m !in t.columns ==> m !in MetricNames(ComputePositionGaps(t, team, pos, metrics))
    ensures m in t.columns ==> |Seqs.Filter(MetricNames(ComputePositionGaps(t, team, pos, metrics)), (n: string) => n == m)| == 1
  {
    var names := MetricNames(ComputePositionGaps(t, team, pos, metrics));
    if m in t.columns {
      OccursOnce(names, m);
    }
  }

  lemma {:induction false} OccursOnce(s: seq<string>, m: string)
    requires Seqs.NoDuplicates(s) && m in s
    ensures |Seqs.Filter(s, (n: string) => n == m)| == 1
    decreases |s|
  {
    if s[0] == m {
      Seqs.FilterAll([], (n: string) => n == m);
      assert forall i :: 1 <= i < |s| ==> s[i] != m;
      NotIn(s[1..], m);
    } else {
      OccursOnce(s[1..], m);
    }
  }

  lemma {:induction false} NotIn(s: seq<string>, m: string)
    requires forall i :: 0 <= i < |s| ==> s[i] != m
    ensures |Seqs.Filter(s, (n: string) => n == m)| == 0
    decreases |s|
  {
    if |s| > 0 {
      NotIn(s[1..], m);
    }
  }

  /** `dropna_metric` applied twice is `dropna_metric` applied once. */
  lemma DropNaIdempotent(t: Table, metrics: seq<string>)
    requires DropNaMetric(t, metrics).Success?
    ensures DropNaMetric(DropNaMetric(t, metrics).value, metrics) == DropNaMetric(t, metrics)
  {
    Seqs.FilterIdempotent(t.rows, (row: Row) => HasAll(row, metrics));
  }
}

=== FILE: cleaning.dfy ===
/** The cleaning script that turns the scraped export into the table the
    analyses read: the raw header is replaced position by position with the
    canonical column names, and each season code such as "20232024" is cut
    down to the year the season starts in.

    The Season column is turned into text first (`astype(str)`), then the
    regular expression `(.{4}).{4}` is searched for in each cell, and the
    captured group is converted with `astype(int)`.
 */
module Cleaning {
  import opened Wrappers
  import opened Frame
  import Text

  /** The names the cleaning script assigns to the export's columns, in
      order. */
  const CanonicalColumns: seq<string> := [
    "A", "EVG", "EVP", "FOW%", "GWG", "GP", "G", "lastName", "OTG", "PIM", "playerId", "+/-",
    "P", "P/GP", "Pos", "PPG", "PPP", "Season", "SHG", "SHP", "S%", "S/C", "S", "Player", "Team", "TOI/GP"]

  /** Where the Season column sits among the canonical columns. */
  const SeasonIndex: nat := 17

  /** One cell of the raw export: text, a whole number, or an empty cell
      (NaN). */
  datatype Cell = StrCell(s: string) | IntCell(i: int) | NaNCell

  datatype RawTable = RawTable(header: seq<string>, rows: seq<seq<Cell>>)

  /** Every row has one cell per header name, as in any data frame. */
  predicate Rectangular(t: RawTable) {
    forall i :: 0 <= i < |t.rows| ==> |t.rows[i]| == |t.header|
  }

  /** A column of numbers with at least one empty cell is a float column:
      its whole numbers are printed with a trailing ".0". */
  predicate FloatColumn(column: seq<Cell>) {
    && (exists i :: 0 <= i < |column| && column[i].NaNCell?)
    && (forall i :: 0 <= i < |column| ==> !column[i].StrCell?)
  }

  /** The season cells of a table. */
  function SeasonColumn(rows: seq<seq<Cell>>): (c: seq<Cell>)
    requires forall i :: 0 <= i < |rows| ==> |rows[i]| > SeasonIndex
    ensures |c| == |rows| && forall i :: 0 <= i < |rows| ==> c[i] == rows[i][SeasonIndex]
  {
    seq(|rows|, i requires 0 <= i < |rows| => rows[i][SeasonIndex])
  }

  /** `astype(str)` of one cell. */
  function Render(c: Cell, floatColumn: bool): string {
    match c
    case StrCell(s) => s
    case IntCell(i) => Text.IntToString(i) + (if floatColumn then ".0" else "")
    case NaNCell => "nan"
  }

  /** `.{4}.{4}` matches at position `j`: eight characters, none of them a
      line break (`.` does not match one). */
  predicate WindowAt(s: string, j: int) {
    0 <= j && j + 8 <= |s| && forall k :: j <= k < j + 8 ==> s[k] != '\n'
  }

  /** `j` is the leftmost match at or after position `i`. */
  predicate FirstWindowFrom(s: string, i: int, j: int) {
    i <= j && WindowAt(s, j) && forall k :: i <= k < j ==> !WindowAt(s, k)
  }

  /** There is only one leftmost match. */
  lemma FirstWindowUnique(s: string, i: int, j: int)
    requires FirstWindowFrom(s, i, j)
    ensures forall k :: FirstWindowFrom(s, i, k) ==> k == j
  {
    forall k | FirstWindowFrom(s, i, k)
      ensures k == j
    {
      assert WindowAt(s, k) && WindowAt(s, j);
    }
  }

  /** The search from position `i` onwards. */
  function ExtractFrom(s: string, i: nat): (r: Option<string>)
    ensures r.None? <==> forall j :: i <= j ==> !WindowAt(s, j)
    ensures r.Some? ==> exists j :: FirstWindowFrom(s, i, j) && r.value == s[j..j + 4]
    decreases |s| - i
  {
    if i + 8 > |s| then None
    else if WindowAt(s, i) then
      assert FirstWindowFrom(s, i, i);
      Some(s[i..i + 4])
    else
      var r := ExtractFrom(s, i + 1);
      if r.Some? then
        var j :| FirstWindowFrom(s, i + 1, j) && r.value == s[j..j + 4];
        assert FirstWindowFrom(s, i, j);
        r
      else r
  }

  /** `str.extract(r"(.{4}).{4}")` on one string: the first four characters
      of the leftmost match, or NaN when nothing matches. */
  function Extract(s: string): (r: Option<string>)
    ensures r.None? <==> forall j :: !WindowAt(s, j)
    ensures r.Some? ==> exists j :: FirstWindowFrom(s, 0, j) && r.value == s[j..j + 4]
  {
    ExtractFrom(s, 0)
  }

  /** The cleaned Season value of one cell: NaN cannot become an integer,
      and a captured group that is not a decimal literal is a `ValueError`. */
  function SeasonYear(c: Cell, floatColumn: bool): (r: Result<int, Error>)
    ensures r == Failure(NaNToInteger) <==> forall j :: !WindowAt(Render(c, floatColumn), j)
    ensures r.Failure? ==> r.error.NaNToInteger? || r.error.InvalidLiteral?
    ensures r.Success? ==> exists j ::
      FirstWindowFrom(Render(c, floatColumn), 0, j) && Text.ParseInt(Render(c, floatColumn)[j..j + 4]) == Some(r.value)
    ensures (exists j ::
      FirstWindowFrom(Render(c, floatColumn), 0, j) && Text.ParseInt(Render(c, floatColumn)[j..j + 4]).Some?) ==> r.Success?
    ensures r.Failure? && r.error.InvalidLiteral? ==> exists j ::
      FirstWindowFrom(Render(c, floatColumn), 0, j) && r.error == InvalidLiteral(Render(c, floatColumn)[j..j + 4])
  {
    var s := Render(c, floatColumn);
    match Extract(s)
    case None => Failure(NaNToInteger)
    case Some(group) =>
      var j :| FirstWindowFrom(s, 0, j) && group == s[j..j + 4];
      FirstWindowUnique(s, 0, j);
      match Text.ParseInt(group)
      case None => Failure(InvalidLiteral(group))
      case Some(year) => Success(year)
  }

  /** `df.columns = cols`: the labels are replaced when the counts agree;
      otherwise pandas refuses with a length mismatch (the axis has one
      count, the new labels another). The cells are untouched. */
  function Rename(t: RawTable): (r: Result<RawTable, Error>)
    ensures r.Failure? <==> |t.header| != |CanonicalColumns|
    ensures r.Failure? ==> r.error == LengthMismatch(|t.header|, |CanonicalColumns|)
    ensures r.Success? ==> r.value.header == CanonicalColumns && r.value.rows == t.rows
  {
    if |t.header| != |CanonicalColumns| then Failure(LengthMismatch(|t.header|, |CanonicalColumns|))
    else Success(RawTable(CanonicalColumns, t.rows))
  }

  /** A row with its Season cell replaced by the year. */
  function SetSeason(row: seq<Cell>, year: int): (r: seq<Cell>)
    requires |row| > SeasonIndex
    ensures |r| == |row|
    ensures r[SeasonIndex] == IntCell(year)
    ensures forall k :: 0 <= k < |row| && k != SeasonIndex ==> r[k] == row[k]
  {
    row[SeasonIndex := IntCell(year)]
  }

  /** A per-cell conversion applied to the Season cell of every row,
      failing at the first row whose cell cannot be converted. */
  function CleanRows(rows: seq<seq<Cell>>, convert: Cell -> Result<int, Error>): (r: Result<seq<seq<Cell>>, Error>)
    requires forall i :: 0 <= i < |rows| ==> |rows[i]| > SeasonIndex
    ensures r.Success? <==> forall i :: 0 <= i < |rows| ==> convert(rows[i][SeasonIndex]).Success?
    ensures r.Success? ==> |r.value| == |rows|
    ensures r.Success? ==> forall i :: 0 <= i < |rows| ==>
      r.value[i] == SetSeason(rows[i], convert(rows[i][SeasonIndex]).value)
    ensures r.Failure? ==> exists i :: FirstFailure(rows, convert, i) && convert(rows[i][SeasonIndex]) == Failure(r.error)
    decreases |rows|
  {
    if |rows| == 0 then Success([])
    else
      var tail := rows[1..];
      assert forall i :: 1 <= i < |rows| ==> rows[i] == tail[i - 1];
      match convert(rows[0][SeasonIndex])
      case Failure(e) =>
        assert FirstFailure(rows, convert, 0);
        Failure(e)
      case Success(year) =>
        match CleanRows(tail, convert)
        case Failure(e) =>
          var i :| FirstFailure(tail, convert, i) && convert(tail[i][SeasonIndex]) == Failure(e);
          assert FirstFailure(rows, convert, i + 1);
          Failure(e)
        case Success(rest) =>
          var r := [SetSeason(rows[0], year)] + rest;
          assert forall i :: 1 <= i < |rows| ==> r[i] == rest[i - 1];
          Success(r)
  }

  /** Row `i` is the first whose Season cell fails to convert. */
  predicate FirstFailure(rows: seq<seq<Cell>>, convert: Cell -> Result<int, Error>, i: int)
    requires forall k :: 0 <= k < |rows| ==> |rows[k]| > SeasonIndex
  {
    && 0 <= i < |rows|
    && convert(rows[i][SeasonIndex]).Failure?
    && forall k :: 0 <= k < i ==> convert(rows[k][SeasonIndex]).Success?
  }

  /** The conversion of the Season column, given how the column prints. */
  function SeasonConversion(floatColumn: bool): Cell -> Result<int, Error> {
    (c: Cell) => SeasonYear(c, floatColumn)
  }

  /** The whole cleaning script on the export. */
  function Clean(t: RawTable): (r: Result<RawTable, Error>)
    requires Rectangular(t)
    ensures |t.header| != |CanonicalColumns| ==> r == Failure(LengthMismatch(|t.header|, |CanonicalColumns|))
    ensures |t.header| == |CanonicalColumns| ==>
      (r.Success? <==> forall i :: 0 <= i < |t.rows| ==>
        SeasonYear(t.rows[i][SeasonIndex], FloatColumn(SeasonColumn(t.rows))).Success?)
    ensures r.Success? ==> r.value.header == CanonicalColumns && |r.value.rows| == |t.rows|
    ensures r.Success? ==> forall i :: 0 <= i < |t.rows| ==>
      && |r.value.rows[i]| == |t.rows[i]|
      && r.value.rows[i][SeasonIndex] == IntCell(SeasonYear(t.rows[i][SeasonIndex], FloatColumn(SeasonColumn(t.rows))).value)
      && forall k :: 0 <= k < |t.rows[i]| && k != SeasonIndex ==> r.value.rows[i][k] == t.rows[i][k]
    ensures |t.header| == |CanonicalColumns| && r.Failure? ==> exists i ::
      && FirstFailure(t.rows, SeasonConversion(FloatColumn(SeasonColumn(t.rows))), i)
      && r.error == SeasonYear(t.rows[i][SeasonIndex], FloatColumn(SeasonColumn(t.rows))).error
  {
    match Rename(t)
    case Failure(e) => Failure(e)
    case Success(renamed) =>
      match CleanRows(renamed.rows, SeasonConversion(FloatColumn(SeasonColumn(renamed.rows))))
      case Failure(e) => Failure(e)
      case Success(rows) => Success(RawTable(CanonicalColumns, rows))
  }

  /** An eight-digit season code becomes the year it starts in (its first
      four digits, the code divided by 10000), whether or not the column
      also holds empty cells. */
  lemma EightDigitSeason(code: int, floatColumn: bool)
    requires 10000000 <= code < 100000000
    ensures SeasonYear(IntCell(code), floatColumn) == Success(code / 10000)
  {
    var digits := Text.NatToString(code);
    var year := code / 10000;
    Text.DigitCount(code, 7);
    Text.DigitCount(year, 3);
    Text.DropFourDigits(code);
    var s := Render(IntCell(code), floatColumn);
    assert s[..8] == digits;
    assert WindowAt(s, 0) by {
      forall k | 0 <= k < 8
        ensures s[k] != '\n'
      {
        assert s[k] == digits[k];
        assert Text.IsDigit(digits[k]);
      }
    }
    assert s[0..4] == Text.NatToString(year);
    Text.IntRoundTrip(year);
  }

  /** A text cell in the usual "YYYYYYYY" or "YYYY-YYYY" form gives the first
      year. */
  lemma SeasonTextExamples()
    ensures SeasonYear(StrCell("20232024"), false) == Success(2023)
    ensures SeasonYear(StrCell("2023-2024"), false) == Success(2023)
    ensures SeasonYear(NaNCell, false) == Failure(NaNToInteger)
  {
    assert WindowAt("20232024", 0);
    assert "20232024"[0..4] == "2023";
    assert WindowAt("2023-2024", 0);
    assert "2023-2024"[0..4] == "2023";
    assert Text.DigitsValue("2023") == 2023 by {
      assert "2023"[..3] == "202" && "202"[..2] == "20" && "20"[..1] == "2";
    }
  }

  /** Anything shorter than eight characters has no match, so its year is
      NaN and the integer conversion fails. In particular the script cannot
      be run on its own output, whose seasons are four-digit years. */
  lemma ShortSeasonFails(c: Cell, floatColumn: bool)
    requires |Render(c, floatColumn)| < 8
    ensures SeasonYear(c, floatColumn) == Failure(NaNToInteger)
  {
  }

  /** A cleaned year of four digits cannot be cleaned again. */
  lemma CleanedYearFailsAgain(year: int)
    requires 1000 <= year < 10000
    ensures SeasonYear(IntCell(year), false) == Failure(NaNToInteger)
  {
    Text.DigitCount(year, 3);
    ShortSeasonFails(IntCell(year), false);
  }

  /** Cleaning changes the labels and the Season column only: every other
      column keeps its cells, row for row. */
  lemma CleanKeepsOtherColumns(t: RawTable, k: int)
    requires Rectangular(t)
    requires Clean(t).Success?
    requires 0 <= k < |CanonicalColumns| && k != SeasonIndex
    ensures forall i :: 0 <= i < |t.rows| ==> Clean(t).value.rows[i][k] == t.rows[i][k]
  {
  }

  /** The relabelling is positional: the export's own header names play no
      part, so two exports with the same column count and the same cells
      clean to the same table, whatever their columns were called. */
  lemma RenameIsPositional(a: RawTable, b: RawTable)
    requires |a.header| == |b.header| && a.rows == b.rows
    ensures Rename(a) == Rename(b)
  {
  }
}

=== FILE: core.dfy ===
/** Player and roster look-ups on the cleaned table: one player's rows or
    career totals over chosen seasons, a team's roster for a season, and
    the per-row highlight labels (with their colours) of the league scatter
    chart. The two packaged copies of this code share the look-ups and the
    highlight labels line for line; only the copy under `nhl_vis_386`
    builds the colour map (`ColorMap`).
 */
module Core {
  import opened Wrappers
  import opened Frame
  import Seqs
  import Text

  /** The `season` argument: omitted, a list, or a single value. */
  datatype SeasonArg = AnySeason | SeasonList(seasons: seq<int>) | OneSeason(season: int)

  /** Which seasons an argument asks for, stated directly. */
  predicate SeasonRequested(arg: SeasonArg, s: int) {
    match arg
    case AnySeason => true
    case SeasonList(ss) => s in ss
    case OneSeason(x) => s == x
  }

  /** The normalisation step: no filter for an omitted season, the list as
      given, or a scalar wrapped in a one-element list. */
  function NormalizeSeason(arg: SeasonArg): (r: Option<seq<int>>)
    ensures r.None? <==> arg.AnySeason?
    ensures r.Some? ==> forall s :: s in r.value <==> SeasonRequested(arg, s)
    ensures r.Some? ==> |r.value| == if arg.OneSeason? then 1 else |arg.seasons|
  {
    match arg
    case AnySeason => None
    case SeasonList(ss) => Some(ss)
    case OneSeason(x) => Some([x])
  }

  function PlayerMask(name: string): Row -> bool {
    (r: Row) => r.player == name
  }

  function SeasonMask(seasons: seq<int>): Row -> bool {
    (r: Row) => r.season in seasons
  }

  /** `player_df[player_df["Season"].isin(season_list)]`, skipped when no
      season was given. */
  function SeasonFilter(rows: seq<Row>, arg: SeasonArg): (r: seq<Row>)
    ensures forall i :: 0 <= i < |r| ==> r[i] in rows && SeasonRequested(arg, r[i].season)
    ensures forall i :: 0 <= i < |rows| && SeasonRequested(arg, rows[i].season) ==> rows[i] in r
    ensures forall x :: multiset(r)[x] == if SeasonRequested(arg, x.season) then multiset(rows)[x] else 0
    ensures Seqs.Subsequence(r, rows)
  {
    match NormalizeSeason(arg)
    case None =>
      Seqs.SubsequenceRefl(rows);
      rows
    case Some(list) =>
      Seqs.FilterKeepsOrder(rows, SeasonMask(list));
      Seqs.Filter(rows, SeasonMask(list))
  }

  /** The player's rows in the requested seasons. */
  function Selection(rows: seq<Row>, name: string, arg: SeasonArg): (r: seq<Row>)
    ensures forall i :: 0 <= i < |r| ==> r[i] in rows && r[i].player == name && SeasonRequested(arg, r[i].season)
    ensures forall i :: 0 <= i < |rows| && rows[i].player == name && SeasonRequested(arg, rows[i].season) ==>
      rows[i] in r
    ensures forall x :: multiset(r)[x] == if x.player == name && SeasonRequested(arg, x.season) then multiset(rows)[x] else 0
    ensures Seqs.Subsequence(r, rows)
  {
    var own := Seqs.Filter(rows, PlayerMask(name));
    assert forall i :: 0 <= i < |rows| && rows[i].player == name ==> rows[i] in own;
    Seqs.FilterKeepsOrder(rows, PlayerMask(name));
    Seqs.SubsequenceTrans(SeasonFilter(own, arg), own, rows);
    SeasonFilter(own, arg)
  }

  /** The columns `get_player_stats` totals. */
  const CountingStats: seq<string> :=
    ["GP", "G", "A", "P", "+/-", "PIM", "EVG", "EVP", "PPG", "PPP", "SHG", "SHP", "OTG", "GWG", "S"]

  /** The one-row summary `get_player_stats` builds with `aggr=True`. */
  datatype PlayerTotals = PlayerTotals(
    player: string,
    seasons: string,
    teams: string,
    shoots: string,
    positions: string,
    sums: map<string, real>,
    pointsPerGame: Option<real>,
    shootingPct: Option<real>)

  /** What `get_player_stats` returns: an empty frame for an unknown player,
      the player's rows with `aggr=False`, or the totals. */
  datatype PlayerStats = EmptyFrame | Filtered(rows: seq<Row>) | Totals(totals: PlayerTotals)

  /** `num / den if den > 0 else None`. */
  function Ratio(num: real, den: real): (r: Option<real>)
    ensures r.Some? <==> den > 0.0
    ensures r.Some? ==> r.value * den == num
  {
    if den > 0.0 then Some(num / den) else None
  }

  /** The earliest season among the rows. */
  function MinSeason(rows: seq<Row>): (m: int)
    requires |rows| > 0
    ensures exists i :: 0 <= i < |rows| && rows[i].season == m
    ensures forall i :: 0 <= i < |rows| ==> m <= rows[i].season
    decreases |rows|
  {
    if |rows| == 1 then rows[0].season
    else
      var rest := MinSeason(rows[1..]);
      assert forall i :: 1 <= i < |rows| ==> rows[i] == rows[1..][i - 1];
      if rows[0].season <= rest then rows[0].season else rest
  }

  /** The latest season among the rows. */
  function MaxSeason(rows: seq<Row>): (m: int)
    requires |rows| > 0
    ensures exists i :: 0 <= i < |rows| && rows[i].season == m
    ensures forall i :: 0 <= i < |rows| ==> rows[i].season <= m
    decreases |rows|
  {
    if |rows| == 1 then rows[0].season
    else
      var rest := MaxSeason(rows[1..]);
      assert forall i :: 1 <= i < |rows| ==> rows[i] == rows[1..][i - 1];
      if rows[0].season >= rest then rows[0].season else rest
  }

  /** `f"{start}-{end}"`. */
  function SeasonLabel(start: int, end: int): string {
    Text.IntToString(start) + "-" + Text.IntToString(end)
  }

  /** `",".join(sorted(values.unique()))`. */
  function DistinctJoined(values: seq<string>): string {
    Text.Join(Text.SortUnique(values), ',')
  }

  function TeamsOf(rows: seq<Row>): (r: seq<string>)
    ensures |r| == |rows| && forall i :: 0 <= i < |rows| ==> r[i] == rows[i].team
  {
    seq(|rows|, i requires 0 <= i < |rows| => rows[i].team)
  }

  function ShootsOf(rows: seq<Row>): (r: seq<string>)
    ensures |r| == |rows| && forall i :: 0 <= i < |rows| ==> r[i] == rows[i].shoots
  {
    seq(|rows|, i requires 0 <= i < |rows| => rows[i].shoots)
  }

  function PositionsOf(rows: seq<Row>): (r: seq<string>)
    ensures |r| == |rows| && forall i :: 0 <= i < |rows| ==> r[i] == rows[i].pos
  {
    seq(|rows|, i requires 0 <= i < |rows| => rows[i].pos)
  }

  /** The column totals of the listed counting stats. */
  function SumsOf(rows: seq<Row>, names: seq<string>): (m: map<string, real>)
    ensures forall k :: 0 <= k < |names| ==> names[k] in m
    ensures forall x :: x in m ==> x in names && m[x] == Sum(rows, x)
    decreases |names|
  {
    if |names| == 0 then map[]
    else
      var init := names[..|names| - 1];
      var last := names[|names| - 1];
      assert forall k :: 0 <= k < |names| - 1 ==> names[k] == init[k];
      SumsOf(rows, init)[last := Sum(rows, last)]
  }

  /** The aggregate block of `get_player_stats` on a non-empty selection. */
  function Aggregate(rows: seq<Row>): (a: PlayerTotals)
    requires |rows| > 0
    ensures a.player == rows[0].player
    ensures a.seasons == SeasonLabel(MinSeason(rows), MaxSeason(rows))
    ensures a.teams == DistinctJoined(TeamsOf(rows))
    ensures a.shoots == DistinctJoined(ShootsOf(rows))
    ensures a.positions == DistinctJoined(PositionsOf(rows))
    ensures forall k :: 0 <= k < |CountingStats| ==> CountingStats[k] in a.sums
    ensures forall m :: m in a.sums ==> m in CountingStats && a.sums[m] == Sum(rows, m)
    ensures a.pointsPerGame == Ratio(Sum(rows, "P"), Sum(rows, "GP"))
    ensures a.shootingPct == Ratio(Sum(rows, "G"), Sum(rows, "S"))
  {
    var sums := SumsOf(rows, CountingStats);
    var ppg := Ratio(Sum(rows, "P"), Sum(rows, "GP"));
    var pct := Ratio(Sum(rows, "G"), Sum(rows, "S"));
    var span := SeasonLabel(MinSeason(rows), MaxSeason(rows));
    PlayerTotals(rows[0].player, span, DistinctJoined(TeamsOf(rows)), DistinctJoined(ShootsOf(rows)),
      DistinctJoined(PositionsOf(rows)), sums, ppg, pct)
  }

  /** `get_player_stats(name, season, aggr)` on the table's rows. An unknown
      name gives an empty frame whatever the other arguments; with
      `aggr=False` the selected rows come back as they are; with
      `aggr=True` an empty selection fails at `iloc[0]`. */
  function GetPlayerStats(rows: seq<Row>, name: string, season: SeasonArg, aggr: bool): (r: Result<PlayerStats, Error>)
    ensures (forall i :: 0 <= i < |rows| ==> rows[i].player != name) ==> r == Success(EmptyFrame)
    ensures (exists i :: 0 <= i < |rows| && rows[i].player == name) ==>
      && (r.Failure? <==> aggr && |Selection(rows, name, season)| == 0)
      && (!aggr ==> r == Success(Filtered(Selection(rows, name, season))))
      && (aggr && |Selection(rows, name, season)| > 0 ==>
            r == Success(Totals(Aggregate(Selection(rows, name, season)))))
    ensures r.Failure? ==> r.error == IndexOutOfBounds
  {
    var own := Seqs.Filter(rows, PlayerMask(name));
    if |own| == 0 then
      assert forall i :: 0 <= i < |rows| ==> rows[i].player != name;
      Success(EmptyFrame)
    else
      assert own[0] in rows;
      var selected := Selection(rows, name, season);
      if !aggr then Success(Filtered(selected))
      else if |selected| == 0 then Failure(IndexOutOfBounds)
      else Success(Totals(Aggregate(selected)))
  }

  /** The argument occurs in the row's team, ignoring case: pandas upper-cases
      both sides and then tests for a literal substring. */
  ghost predicate TeamMatches(team: string, row: Row) {
    exists j :: Text.OccursAt(Text.Upper(team), Text.Upper(row.team), j)
  }

  function RosterMask(team: string, season: int): Row -> bool {
    (r: Row) => Text.Contains(Text.Upper(r.team), Text.Upper(team)) && r.season == season
  }

  /** `get_roster_stats(team, season)`: the rows whose team contains `team`
      as a literal, case-insensitive substring and whose season is
      `season`. */
  function GetRosterStats(rows: seq<Row>, team: string, season: int): (r: seq<Row>)
    ensures forall i :: 0 <= i < |r| ==> r[i] in rows && r[i].season == season && TeamMatches(team, r[i])
    ensures forall i :: 0 <= i < |rows| && rows[i].season == season && TeamMatches(team, rows[i]) ==> rows[i] in r
    ensures forall x :: multiset(r)[x] == if x.season == season && TeamMatches(team, x) then multiset(rows)[x] else 0
    ensures Seqs.Subsequence(r, rows)
  {
    Seqs.FilterKeepsOrder(rows, RosterMask(team, season));
    Seqs.Filter(rows, RosterMask(team, season))
  }

  /** The four highlight groups of the league scatter chart. */
  datatype Category = PlayerAndTeam | PlayerOnly | TeamOnly | Other

  /** `make_highlights`' if-chain: a row matching both the player and the
      team falls in the combined group, which therefore takes precedence.
      An omitted player or team (`None`) matches no row. */
  function Classify(player: Option<string>, team: Option<string>, rowPlayer: string, rowTeam: string): (c: Category)
    ensures c == PlayerAndTeam <==> player == Some(rowPlayer) && team == Some(rowTeam)
    ensures c == PlayerOnly <==> player == Some(rowPlayer) && team != Some(rowTeam)
    ensures c == TeamOnly <==> player != Some(rowPlayer) && team == Some(rowTeam)
    ensures c == Other <==> player != Some(rowPlayer) && team != Some(rowTeam)
  {
    if player == Some(rowPlayer) && team == Some(rowTeam) then PlayerAndTeam
    else if player == Some(rowPlayer) then PlayerOnly
    else if team == Some(rowTeam) then TeamOnly
    else Other
  }

  /** `f"{player} / {team}"`. */
  function CombinedLabel(player: string, team: string): string {
    player + " / " + team
  }

  /** The label `make_highlights` returns for a row. */
  function MakeHighlight(player: Option<string>, team: Option<string>, rowPlayer: string, rowTeam: string): string {
    match Classify(player, team, rowPlayer, rowTeam)
    case PlayerAndTeam => CombinedLabel(rowPlayer, rowTeam)
    case PlayerOnly => rowPlayer
    case TeamOnly => rowTeam
    case Other => "Other"
  }

  /** The `highlight` column `score_scatter` adds, over the rows of the given
      season (all rows when no season is given). */
  function Highlights(rows: seq<Row>, player: Option<string>, season: Option<int>, team: Option<string>): (h: seq<string>)
    ensures |h| == |SeasonRows(rows, season)|
    ensures forall i :: 0 <= i < |h| ==>
      h[i] == MakeHighlight(player, team, SeasonRows(rows, season)[i].player, SeasonRows(rows, season)[i].team)
  {
    var data := SeasonRows(rows, season);
    seq(|data|, i requires 0 <= i < |data| => MakeHighlight(player, team, data[i].player, data[i].team))
  }

  /** `df[df["Season"] == season]`, or every row when no season is given. */
  function SeasonRows(rows: seq<Row>, season: Option<int>): (r: seq<Row>)
    ensures forall i :: 0 <= i < |r| ==> r[i] in rows && (season.Some? ==> r[i].season == season.value)
    ensures forall i :: 0 <= i < |rows| && (season.Some? ==> rows[i].season == season.value) ==> rows[i] in r
    ensures forall x :: multiset(r)[x] == if season.Some? ==> x.season == season.value then multiset(rows)[x] else 0
    ensures Seqs.Subsequence(r, rows)
  {
    match season
    case None =>
      Seqs.SubsequenceRefl(rows);
      rows
    case Some(s) =>
      Seqs.FilterKeepsOrder(rows, SeasonMask([s]));
      Seqs.Filter(rows, SeasonMask([s]))
  }

  /** The colour map `score_scatter` builds, entry by entry in the order of
      the source, so a later assignment to the same key wins. */
  function ColorMap(player: Option<string>, team: Option<string>): (cm: map<string, string>)
    ensures "Other" in cm
    ensures cm["Other"] == if player.None? && team.None? then "blue" else "lightgray"
    ensures team.Some? ==> team.value in cm
    ensures team.Some? && team.value != "Other" ==> cm[team.value] == "blue"
    ensures player.Some? ==> player.value in cm
    ensures player.Some? && player.value != "Other" && team != Some(player.value) ==> cm[player.value] == "red"
    ensures player.Some? && team.Some? ==> CombinedLabel(player.value, team.value) in cm
    ensures player.Some? && team.Some? && CombinedLabel(player.value, team.value) != "Other" ==>
      cm[CombinedLabel(player.value, team.value)] == "purple"
    ensures cm.Keys ==
      (if player.Some? then {player.value} else {}) + (if team.Some? then {team.value} else {})
      + (if player.Some? && team.Some? then {CombinedLabel(player.value, team.value)} else {}) + {"Other"}
  {
    var m1: map<string, string> := if player.Some? then map[player.value := "red"] else map[];
    var m2 := if team.Some? then m1[team.value := "blue"] else m1;
    var m3 := if player.Some? && team.Some? then m2[CombinedLabel(player.value, team.value) := "purple"] else m2;
    assert player.Some? && team.Some? ==> CombinedLabel(player.value, team.value) in m3;
    var m4 := m3["Other" := "lightgray"];
    if player.None? && team.None? then m4["Other" := "blue"] else m4
  }
}

=== FILE: core_properties.dfy ===
/** Properties of the player and roster look-ups and of the highlight
    colouring that relate several calls or hold for all inputs.
 */
module CoreProperties {
  import opened Wrappers
  import opened Frame
  import opened Core
  import Seqs
  import Text

  /** Career totals are additive over disjoint season lists: the total of a
      counting stat over seasons `a + b` is its total over `a` plus its total
      over `b`. */
  lemma SelectionSumAdditive(rows: seq<Row>, name: string, a: seq<int>, b: seq<int>, m: string)
    requires forall s :: s in a ==> s !in b
    ensures Sum(Selection(rows, name, SeasonList(a + b)), m)
         == Sum(Selection(rows, name, SeasonList(a)), m) + Sum(Selection(rows, name, SeasonList(b)), m)
  {
    var own := Seqs.Filter(rows, PlayerMask(name));
    assert forall r: Row :: SeasonMask(a + b)(r) == (SeasonMask(a)(r) || SeasonMask(b)(r));
    SumDisjointUnion(own, m, SeasonMask(a), SeasonMask(b), SeasonMask(a + b));
  }

  /** The same additivity read off `get_player_stats`' aggregated rows: each
      counting stat of the totals over `a + b` is the sum of the totals over
      `a` and over `b`. */
  lemma TotalsAdditive(rows: seq<Row>, name: string, a: seq<int>, b: seq<int>)
    requires forall s :: s in a ==> s !in b
    requires GetPlayerStats(rows, name, SeasonList(a), true).Success?
    requires GetPlayerStats(rows, name, SeasonList(a), true).value.Totals?
    requires GetPlayerStats(rows, name, SeasonList(b), true).Success?
    requires GetPlayerStats(rows, name, SeasonList(b), true).value.Totals?
    ensures GetPlayerStats(rows, name, SeasonList(a + b), true).Success?
    ensures
      var ab := GetPlayerStats(rows, name, SeasonList(a + b), true).value;
      var ta := GetPlayerStats(rows, name, SeasonList(a), true).value;
      var tb := GetPlayerStats(rows, name, SeasonList(b), true).value;
      ab.Totals? && ta.Totals? && tb.Totals? &&
      forall k :: 0 <= k < |CountingStats| ==>
        ab.totals.sums[CountingStats[k]] == ta.totals.sums[CountingStats[k]] + tb.totals.sums[CountingStats[k]]
  {
    var sa := Selection(rows, name, SeasonList(a));
    var sb := Selection(rows, name, SeasonList(b));
    var sab := Selection(rows, name, SeasonList(a + b));
    assert exists j :: 0 <= j < |rows| && rows[j].player == name;
    assert |sa| > 0 && |sb| > 0;
    assert sa[0] in rows && sa[0].player == name && sa[0].season in a + b;
    var i :| 0 <= i < |rows| && rows[i] == sa[0];
    assert rows[i] in sab;
    forall k | 0 <= k < |CountingStats|
      ensures Aggregate(sab).sums[CountingStats[k]]
           == Aggregate(sa).sums[CountingStats[k]] + Aggregate(sb).sums[CountingStats[k]]
    {
      SelectionSumAdditive(rows, name, a, b, CountingStats[k]);
    }
  }

  /** The "Season(s)" cell reads back: it splits at the dash into the first
      and the last season, each of which `int()` parses to its value. */
  lemma SeasonLabelRoundTrip(start: int, end: int)
    requires start >= 0 && end >= 0
    ensures Text.Split(SeasonLabel(start, end), '-') == [Text.IntToString(start), Text.IntToString(end)]
    ensures Text.ParseInt(Text.Split(SeasonLabel(start, end), '-')[0]) == Some(start)
    ensures Text.ParseInt(Text.Split(SeasonLabel(start, end), '-')[1]) == Some(end)
  {
    var parts := [Text.IntToString(start), Text.IntToString(end)];
    assert Text.Join(parts, '-') == SeasonLabel(start, end) by {
      assert parts[1..] == [Text.IntToString(end)];
    }
    NoDash(start);
    NoDash(end);
    Text.SplitJoin(parts, '-');
    Text.IntRoundTrip(start);
    Text.IntRoundTrip(end);
  }

  lemma NoDash(n: int)
    requires n >= 0
    ensures '-' !in Text.IntToString(n)
  {
    assert Text.AllDigits(Text.IntToString(n));
  }

  /** The aggregated row's season span names the earliest and the latest
      selected season. */
  lemma AggregateSeasonSpan(rows: seq<Row>)
    requires |rows| > 0
    requires forall i :: 0 <= i < |rows| ==> rows[i].season >= 0
    ensures |Text.Split(Aggregate(rows).seasons, '-')| == 2
    ensures Text.ParseInt(Text.Split(Aggregate(rows).seasons, '-')[0]) == Some(MinSeason(rows))
    ensures Text.ParseInt(Text.Split(Aggregate(rows).seasons, '-')[1]) == Some(MaxSeason(rows))
    ensures MinSeason(rows) <= MaxSeason(rows)
  {
    SeasonLabelRoundTrip(MinSeason(rows), MaxSeason(rows));
  }

  /** `",".join(sorted(set(values)))` splits back into the sorted distinct
      values, provided no value holds a comma. */
  lemma DistinctJoinedDecodes(values: seq<string>)
    requires |values| > 0
    requires forall i :: 0 <= i < |values| ==> ',' !in values[i]
    ensures Text.Split(DistinctJoined(values), ',') == Text.SortUnique(values)
  {
    var u := Text.SortUnique(values);
    assert values[0] in u;
    forall i | 0 <= i < |u|
      ensures ',' !in u[i]
    {
      var j :| 0 <= j < |values| && values[j] == u[i];
    }
    Text.SplitJoin(u, ',');
  }

  /** The joined cell depends only on which values occur, not on their order
      or repetition. */
  lemma DistinctJoinedSetOnly(a: seq<string>, b: seq<string>)
    requires forall i :: 0 <= i < |a| ==> a[i] in b
    requires forall i :: 0 <= i < |b| ==> b[i] in a
    ensures DistinctJoined(a) == DistinctJoined(b)
  {
    var ua, ub := Text.SortUnique(a), Text.SortUnique(b);
    forall i | 0 <= i < |ua|
      ensures ua[i] in ub
    {
      var j :| 0 <= j < |a| && a[j] == ua[i];
      var k :| 0 <= k < |b| && b[k] == a[j];
    }
    forall i | 0 <= i < |ub|
      ensures ub[i] in ua
    {
      var j :| 0 <= j < |b| && b[j] == ub[i];
      var k :| 0 <= k < |a| && a[k] == b[j];
    }
    Text.StrictlySortedUnique(ua, ub);
  }

  /** A joined cell lists every value once, in sorted order, and nothing
      else, provided no value holds a comma. */
  lemma JoinedCellLists(values: seq<string>)
    requires |values| > 0
    requires forall i :: 0 <= i < |values| ==> ',' !in values[i]
    ensures Text.StrictlySorted(Text.Split(DistinctJoined(values), ','))
    ensures forall i :: 0 <= i < |values| ==> values[i] in Text.Split(DistinctJoined(values), ',')
    ensures forall v :: v in Text.Split(DistinctJoined(values), ',') ==> v in values
  {
    DistinctJoinedDecodes(values);
    var u := Text.SortUnique(values);
    forall v | v in u
      ensures v in values
    {
      var k :| 0 <= k < |u| && u[k] == v;
    }
  }

  /** The "Team(s)" cell lists every team the player's rows name, each once,
      in sorted order, and nothing else. */
  lemma AggregateTeamsListed(rows: seq<Row>)
    requires |rows| > 0
    requires forall i :: 0 <= i < |rows| ==> ',' !in rows[i].team
    ensures Text.StrictlySorted(Text.Split(Aggregate(rows).teams, ','))
    ensures forall i :: 0 <= i < |rows| ==> rows[i].team in Text.Split(Aggregate(rows).teams, ',')
    ensures forall t :: t in Text.Split(Aggregate(rows).teams, ',') ==> exists i :: 0 <= i < |rows| && rows[i].team == t
  {
    var teams := TeamsOf(rows);
    JoinedCellLists(teams);
    forall t | t in Text.Split(Aggregate(rows).teams, ',')
      ensures exists i :: 0 <= i < |rows| && rows[i].team == t
    {
      var i :| 0 <= i < |teams| && teams[i] == t;
    }
  }

  /** The "S/C" cell lists every handedness of the player's rows, each once,
      in sorted order, and nothing else. */
  lemma AggregateShootsListed(rows: seq<Row>)
    requires |rows| > 0
    requires forall i :: 0 <= i < |rows| ==> ',' !in rows[i].shoots
    ensures Text.StrictlySorted(Text.Split(Aggregate(rows).shoots, ','))
    ensures forall i :: 0 <= i < |rows| ==> rows[i].shoots in Text.Split(Aggregate(rows).shoots, ',')
    ensures forall v :: v in Text.Split(Aggregate(rows).shoots, ',') ==> exists i :: 0 <= i < |rows| && rows[i].shoots == v
  {
    var shoots := ShootsOf(rows);
    JoinedCellLists(shoots);
    forall v | v in Text.Split(Aggregate(rows).shoots, ',')
      ensures exists i :: 0 <= i < |rows| && rows[i].shoots == v
    {
      var i :| 0 <= i < |shoots| && shoots[i] == v;
    }
  }

  /** The "Position" cell lists every position of the player's rows, each
      once, in sorted order, and nothing else. */
  lemma AggregatePositionsListed(rows: seq<Row>)
    requires |rows| > 0
    requires forall i :: 0 <= i < |rows| ==> ',' !in rows[i].pos
    ensures Text.StrictlySorted(Text.Split(Aggregate(rows).positions, ','))
    ensures forall i :: 0 <= i < |rows| ==> rows[i].pos in Text.Split(Aggregate(rows).positions, ',')
    ensures forall v :: v in Text.Split(Aggregate(rows).positions, ',') ==> exists i :: 0 <= i < |rows| && rows[i].pos == v
  {
    var positions := PositionsOf(rows);
    JoinedCellLists(positions);
    forall v | v in Text.Split(Aggregate(rows).positions, ',')
      ensures exists i :: 0 <= i < |rows| && rows[i].pos == v
    {
      var i :| 0 <= i < |positions| && positions[i] == v;
    }
  }

  /** The roster look-up ignores the case of its team argument. */
  lemma RosterCaseInsensitive(rows: seq<Row>, a: string, b: string, season: int)
    requires Text.Upper(a) == Text.Upper(b)
    ensures GetRosterStats(rows, a, season) == GetRosterStats(rows, b, season)
  {
    Seqs.FilterExtensional(rows, RosterMask(a, season), RosterMask(b, season));
  }

  /** A row of exactly the requested team in the requested season is on the
      roster, whatever the case of the argument. */
  lemma RosterExactTeamIncluded(rows: seq<Row>, team: string, season: int, i: int)
    requires 0 <= i < |rows|
    requires Text.Upper(rows[i].team) == Text.Upper(team) && rows[i].season == season
    ensures rows[i] in GetRosterStats(rows, team, season)
  {
    var u := Text.Upper(team);
    assert u[0..|u|] == u;
    assert Text.OccursAt(u, Text.Upper(rows[i].team), 0);
  }

  /** The match is by substring, not equality: an empty team argument keeps
      the whole season. */
  lemma RosterEmptyTeam(rows: seq<Row>, season: int)
    ensures GetRosterStats(rows, "", season) == SeasonRows(rows, Some(season))
  {
    forall i | 0 <= i < |rows|
      ensures RosterMask("", season)(rows[i]) == SeasonMask([season])(rows[i])
    {
      assert Text.Upper("") == "";
      assert Text.OccursAt("", Text.Upper(rows[i].team), 0);
    }
    Seqs.FilterExtensional(rows, RosterMask("", season), SeasonMask([season]));
  }

  /** The combined label always holds " / ", so it never collides with the
      "Other" bucket. */
  lemma CombinedNotOther(player: string, team: string)
    ensures CombinedLabel(player, team) != "Other"
  {
    var c := CombinedLabel(player, team);
    assert c[|player| + 1] == '/';
  }

  /** Every label `make_highlights` can produce has an entry in the colour
      map built from the same player and team. */
  lemma EveryHighlightHasColour(player: Option<string>, team: Option<string>, rowPlayer: string, rowTeam: string)
    ensures MakeHighlight(player, team, rowPlayer, rowTeam) in ColorMap(player, team)
  {
  }

  /** The colour a row is drawn in: purple when it matches both, red for the
      player alone, blue for the team alone, and the "Other" colour
      otherwise. Red and blue can be overwritten only by a player or team
      literally named "Other", or by a player whose name equals the team. */
  lemma HighlightColour(player: Option<string>, team: Option<string>, rowPlayer: string, rowTeam: string)
    ensures var c := Classify(player, team, rowPlayer, rowTeam);
      var colour := ColorMap(player, team)[MakeHighlight(player, team, rowPlayer, rowTeam)];
      && (c == PlayerAndTeam ==> colour == "purple")
      && (c == PlayerOnly && rowPlayer != "Other" && team != Some(rowPlayer) ==> colour == "red")
      && (c == TeamOnly && rowTeam != "Other" ==> colour == "blue")
      && (c == Other ==> colour == if player.None? && team.None? then "blue" else "lightgray")
  {
    EveryHighlightHasColour(player, team, rowPlayer, rowTeam);
    if player.Some? && team.Some? {
      CombinedNotOther(player.value, team.value);
    }
  }
}

=== FILE: frame.dfy ===
/** The cleaned player-season table every analysis reads.

    A row is one stint of one player with one team in one season; its
    numeric columns sit in a map from column name to an optional real,
    where `None` is a NaN cell. A column name absent from a row's map also
    reads as NaN. The table carries its column set, because some callers
    raise `KeyError` on an unknown column and one silently skips it.
 */
module Frame {
  import opened Wrappers
  import Seqs

  datatype Row = Row(
    player: string,
    team: string,
    pos: string,
    shoots: string,
    season: int,
    metrics: map<string, Option<real>>)

  datatype Table = Table(columns: set<string>, rows: seq<Row>)

  /** Everything the modelled code can raise. */
  datatype Error =
    | KeyError(keys: seq<string>)
    | NoDataForPosition(position: string)
    | IndexOutOfBounds
    | LengthMismatch(expected: nat, actual: nat)
    | NaNToInteger
    | InvalidLiteral(text: string)

  /** The cell of `row` in column `m`; NaN when the row has no such entry. */
  function Value(row: Row, m: string): Option<real> {
    if m in row.metrics then row.metrics[m] else None
  }

  /** Every listed metric has a value in `row` (the row survives
      `dropna(subset=metrics)`). */
  predicate HasAll(row: Row, metrics: seq<string>) {
    forall k :: 0 <= k < |metrics| ==> Value(row, metrics[k]).Some?
  }

  /** The mask "is one of `columns`" over names. */
  function ColumnMask(columns: set<string>): string -> bool {
    (m: string) => m in columns
  }

  /** The listed metrics that are not among `columns`, in the order given. */
  function MissingColumns(columns: set<string>, metrics: seq<string>): (r: seq<string>)
    ensures |r| == 0 <==> forall k :: 0 <= k < |metrics| ==> metrics[k] in columns
  {
    var r := Seqs.Filter(metrics, m => m !in columns);
    assert forall k :: 0 <= k < |metrics| && metrics[k] !in columns ==> metrics[k] in r;
    assert |r| > 0 ==> r[0] in metrics && r[0] !in columns;
    r
  }

  /** The non-NaN values of column `m`, in row order (what pandas aggregates
      once it has skipped NaN). */
  function Values(rows: seq<Row>, m: string): (vs: seq<real>)
    ensures |vs| <= |rows|
    ensures (forall i :: 0 <= i < |rows| ==> Value(rows[i], m).Some?) ==> |vs| == |rows|
    decreases |rows|
  {
    if |rows| == 0 then []
    else
      var rest := Values(rows[1..], m);
      match Value(rows[0], m)
      case Some(v) => [v] + rest
      case None => rest
  }

  lemma {:induction false} ValuesConcat(a: seq<Row>, b: seq<Row>, m: string)
    ensures Values(a + b, m) == Values(a, m) + Values(b, m)
    decreases |a|
  {
    if |a| == 0 {
      assert a + b == b;
    } else {
      assert (a + b)[1..] == a[1..] + b;
      ValuesConcat(a[1..], b, m);
    }
  }

  /** Reordering the rows reorders the column's values and nothing more. */
  lemma {:induction false} ValuesPermutation(a: seq<Row>, b: seq<Row>, m: string)
    requires multiset(a) == multiset(b)
    ensures multiset(Values(a, m)) == multiset(Values(b, m))
    decreases |a|
  {
    assert |a| == |multiset(a)| == |b|;
    if |a| > 0 {
      var x := a[0];
      assert x in multiset(b);
      var k :| 0 <= k < |b| && b[k] == x;
      var rest := b[..k] + b[k + 1..];
      RemoveOne(b, k);
      assert a == [x] + a[1..];
      assert multiset(a[1..]) == multiset(rest);
      ValuesPermutation(a[1..], rest, m);
      ValuesConcat([x], a[1..], m);
      ValuesSplit(b, k, m);
    }
  }

  lemma RemoveOne(b: seq<Row>, k: int)
    requires 0 <= k < |b|
    ensures multiset(b[..k] + b[k + 1..]) == multiset(b) - multiset{b[k]}
  {
    assert b == b[..k] + [b[k]] + b[k + 1..];
    assert multiset(b) == multiset(b[..k]) + multiset{b[k]} + multiset(b[k + 1..]);
  }

  lemma ValuesSplit(b: seq<Row>, k: int, m: string)
    requires 0 <= k < |b|
    ensures multiset(Values(b, m)) == multiset(Values([b[k]], m)) + multiset(Values(b[..k] + b[k + 1..], m))
  {
    assert b == b[..k] + [b[k]] + b[k + 1..];
    ValuesConcat(b[..k] + [b[k]], b[k + 1..], m);
    ValuesConcat(b[..k], [b[k]], m);
    ValuesConcat(b[..k], b[k + 1..], m);
  }

  /** pandas' `Series.sum()` of column `m`: NaN cells count as zero, so an
      all-NaN column sums to 0. */
  function Sum(rows: seq<Row>, m: string): real
    decreases |rows|
  {
    if |rows| == 0 then 0.0 else Value(rows[0], m).GetOr(0.0) + Sum(rows[1..], m)
  }

  /** A sum over rows picked by one of two exclusive masks is the sum over
      the rows of each mask. */
  lemma {:induction false} SumDisjointUnion(rows: seq<Row>, m: string, p: Row -> bool, q: Row -> bool, pq: Row -> bool)
    requires forall r :: pq(r) == (p(r) || q(r))
    requires forall r :: !(p(r) && q(r))
    ensures Sum(Seqs.Filter(rows, pq), m) == Sum(Seqs.Filter(rows, p), m) + Sum(Seqs.Filter(rows, q), m)
    decreases |rows|
  {
    if |rows| > 0 {
      SumDisjointUnion(rows[1..], m, p, q, pq);
    }
  }
}

=== FILE: seqs.dfy ===
/** Order-preserving selection and first-occurrence de-duplication over
    sequences: the two shapes every boolean-mask selection and every
    dict comprehension in the analysis code reduce to.
 */
module Seqs {

  /** `r` is `s` with some elements left out and the others in their
      original order: either `r` is used up, or the head of `s` is matched
      with the head of `r` or skipped. */
  ghost predicate Subsequence<T>(r: seq<T>, s: seq<T>)
    decreases |s|
  {
    || |r| == 0
    || (|s| > 0 && ((r[0] == s[0] && Subsequence(r[1..], s[1..])) || Subsequence(r, s[1..])))
  }

  /** Every sequence is a subsequence of itself. */
  lemma {:induction false} SubsequenceRefl<T>(s: seq<T>)
    ensures Subsequence(s, s)
    decreases |s|
  {
    if |s| > 0 {
      SubsequenceRefl(s[1..]);
    }
  }

  /** A subsequence of a subsequence is a subsequence. */
  lemma {:induction false} SubsequenceTrans<T>(a: seq<T>, b: seq<T>, c: seq<T>)
    requires Subsequence(a, b) && Subsequence(b, c)
    ensures Subsequence(a, c)
    decreases |c|
  {
    if |a| > 0 {
      assert |b| > 0 && |c| > 0;
      if b[0] == c[0] && Subsequence(b[1..], c[1..]) {
        if a[0] == b[0] && Subsequence(a[1..], b[1..]) {
          SubsequenceTrans(a[1..], b[1..], c[1..]);
        } else {
          SubsequenceTrans(a, b[1..], c[1..]);
        }
      } else {
        SubsequenceTrans(a, b, c[1..]);
      }
    }
  }

  /** A subsequence holds no element more often than the sequence does. */
  lemma {:induction false} SubsequenceMultiset<T>(r: seq<T>, s: seq<T>)
    requires Subsequence(r, s)
    ensures multiset(r) <= multiset(s)
    decreases |s|
  {
    if |r| > 0 {
      assert s == [s[0]] + s[1..];
      if r[0] == s[0] && Subsequence(r[1..], s[1..]) {
        SubsequenceMultiset(r[1..], s[1..]);
        assert r == [r[0]] + r[1..];
      } else {
        SubsequenceMultiset(r, s[1..]);
      }
    }
  }

  /** The elements of `s` that satisfy `p`, in their original order
      (a boolean-mask selection `df[mask]`). */
  function Filter<T(!new)>(s: seq<T>, p: T -> bool): (r: seq<T>)
    ensures |r| <= |s|
    ensures forall i :: 0 <= i < |r| ==> r[i] in s && p(r[i])
    ensures forall i :: 0 <= i < |s| && p(s[i]) ==> s[i] in r
    ensures forall x :: multiset(r)[x] == if p(x) then multiset(s)[x] else 0
    decreases |s|
  {
    if |s| == 0 then []
    else
      var rest := Filter(s[1..], p);
      var r := if p(s[0]) then [s[0]] + rest else rest;
      FilterStep(s, p, rest, r);
      r
  }

  /** One step of `Filter`: from the selection of the tail to the
      selection of the whole sequence. */
  lemma FilterStep<T(!new)>(s: seq<T>, p: T -> bool, rest: seq<T>, r: seq<T>)
    requires |s| > 0 && r == if p(s[0]) then [s[0]] + rest else rest
    requires |rest| <= |s[1..]|
    requires forall x :: multiset(rest)[x] == if p(x) then multiset(s[1..])[x] else 0
    ensures |r| <= |s|
    ensures forall i :: 0 <= i < |r| ==> r[i] in s && p(r[i])
    ensures forall i :: 0 <= i < |s| && p(s[i]) ==> s[i] in r
    ensures forall x :: multiset(r)[x] == if p(x) then multiset(s)[x] else 0
  {
    assert s == [s[0]] + s[1..];
    assert multiset(s) == multiset{s[0]} + multiset(s[1..]);
    if p(s[0]) {
      assert multiset(r) == multiset{s[0]} + multiset(rest);
    }
    forall i | 0 <= i < |r|
      ensures r[i] in s && p(r[i])
    {
      assert multiset(r)[r[i]] > 0;
    }
    forall i | 0 <= i < |s| && p(s[i])
      ensures s[i] in r
    {
      assert multiset(s)[s[i]] > 0;
    }
  }

  lemma {:induction false} FilterConcat<T(!new)>(a: seq<T>, b: seq<T>, p: T -> bool)
    ensures Filter(a + b, p) == Filter(a, p) + Filter(b, p)
    decreases |a|
  {
    if |a| == 0 {
      assert a + b == b;
    } else {
      assert (a + b)[1..] == a[1..] + b;
      FilterConcat(a[1..], b, p);
    }
  }

  /** Selecting twice with the same mask is selecting once. */
  lemma {:induction false} FilterIdempotent<T(!new)>(s: seq<T>, p: T -> bool)
    ensures Filter(Filter(s, p), p) == Filter(s, p)
    decreases |s|
  {
    if |s| > 0 {
      FilterIdempotent(s[1..], p);
      if p(s[0]) {
        assert ([s[0]] + Filter(s[1..], p))[1..] == Filter(s[1..], p);
      }
    }
  }

  /** Masks that agree on every element of `s` select the same rows. */
  lemma {:induction false} FilterExtensional<T(!new)>(s: seq<T>, p: T -> bool, q: T -> bool)
    requires forall i :: 0 <= i < |s| ==> p(s[i]) == q(s[i])
    ensures Filter(s, p) == Filter(s, q)
    decreases |s|
  {
    if |s| > 0 {
      FilterExtensional(s[1..], p, q);
    }
  }

  /** A selection keeps the passing elements in their original order. */
  lemma {:induction false} FilterKeepsOrder<T(!new)>(s: seq<T>, p: T -> bool)
    ensures Subsequence(Filter(s, p), s)
    decreases |s|
  {
    if |s| > 0 {
      FilterKeepsOrder(s[1..], p);
      if p(s[0]) {
        assert ([s[0]] + Filter(s[1..], p))[1..] == Filter(s[1..], p);
      }
    }
  }

  /** The order and the multiplicities together determine the selection:
      any subsequence of `s` that holds every passing element as often as
      `s` does, and no failing one, is `Filter(s, p)`. */
  lemma {:induction false} FilterUnique<T(!new)>(s: seq<T>, p: T -> bool, r: seq<T>)
    requires Subsequence(r, s)
    requires forall x :: multiset(r)[x] == if p(x) then multiset(s)[x] else 0
    ensures r == Filter(s, p)
    decreases |s|, 1
  {
    if |s| == 0 {
      assert multiset(r) == multiset{};
    } else if |r| > 0 && r[0] == s[0] && Subsequence(r[1..], s[1..]) {
      FilterUniqueKeep(s, p, r);
    } else {
      FilterUniqueSkip(s, p, r);
    }
  }

  /** `FilterUnique` when `r` matches its head with the head of `s`. */
  lemma {:induction false} FilterUniqueKeep<T(!new)>(s: seq<T>, p: T -> bool, r: seq<T>)
    requires |s| > 0 && |r| > 0 && r[0] == s[0] && Subsequence(r[1..], s[1..])
    requires forall x :: multiset(r)[x] == if p(x) then multiset(s)[x] else 0
    ensures r == Filter(s, p)
    decreases |s|, 0
  {
    var h, t := s[0], s[1..];
    assert s == [h] + t;
    assert multiset(s) == multiset{h} + multiset(t);
    assert r == [h] + r[1..];
    assert multiset(r) == multiset{h} + multiset(r[1..]);
    assert p(h);
    FilterUnique(t, p, r[1..]);
    assert ([h] + Filter(t, p))[1..] == Filter(t, p);
  }

  /** `FilterUnique` when `r` skips the head of `s`. */
  lemma {:induction false} FilterUniqueSkip<T(!new)>(s: seq<T>, p: T -> bool, r: seq<T>)
    requires |s| > 0 && Subsequence(r, s) && !(|r| > 0 && r[0] == s[0] && Subsequence(r[1..], s[1..]))
    requires forall x :: multiset(r)[x] == if p(x) then multiset(s)[x] else 0
    ensures r == Filter(s, p)
    decreases |s|, 0
  {
    var h, t := s[0], s[1..];
    assert s == [h] + t;
    assert multiset(s) == multiset{h} + multiset(t);
    assert Subsequence(r, t);
    SubsequenceMultiset(r, t);
    assert !p(h) by {
      assert multiset(r)[h] <= multiset(t)[h] < multiset(s)[h];
    }
    forall x
      ensures multiset(r)[x] == if p(x) then multiset(t)[x] else 0
    {
    }
    FilterUnique(t, p, r);
  }

  /** A mask every element passes keeps the whole sequence. */
  lemma {:induction false} FilterAll<T(!new)>(s: seq<T>, p: T -> bool)
    requires forall i :: 0 <= i < |s| ==> p(s[i])
    ensures Filter(s, p) == s
    decreases |s|
  {
    if |s| > 0 {
      FilterAll(s[1..], p);
    }
  }

  /** Reordering the input reorders the selection and nothing more. */
  lemma FilterPermutation<T(!new)>(a: seq<T>, b: seq<T>, p: T -> bool)
    requires multiset(a) == multiset(b)
    ensures multiset(Filter(a, p)) == multiset(Filter(b, p))
  {
    forall x
      ensures multiset(Filter(a, p))[x] == multiset(Filter(b, p))[x]
    {
    }
  }

  /** A mask and its complement split `s` into two parts that together hold
      every element exactly as often as `s` does. */
  lemma FilterPartition<T(!new)>(s: seq<T>, p: T -> bool, q: T -> bool)
    requires forall x :: q(x) == !p(x)
    ensures multiset(Filter(s, p)) + multiset(Filter(s, q)) == multiset(s)
    ensures forall i :: 0 <= i < |Filter(s, p)| ==> Filter(s, p)[i] !in Filter(s, q)
  {
    forall x
      ensures (multiset(Filter(s, p)) + multiset(Filter(s, q)))[x] == multiset(s)[x]
    {
    }
  }

  predicate NoDuplicates<T(==)>(s: seq<T>) {
    forall i, j :: 0 <= i < j < |s| ==> s[i] != s[j]
  }

  /** Every passing element survives selection followed by de-duplication. */
  lemma DedupFilterKeeps<T(!new)>(s: seq<T>, p: T -> bool)
    ensures forall k :: 0 <= k < |s| && p(s[k]) ==> s[k] in Dedup(Filter(s, p))
  {
    var present := Filter(s, p);
    forall k | 0 <= k < |s| && p(s[k])
      ensures s[k] in Dedup(present)
    {
      var j :| 0 <= j < |present| && present[j] == s[k];
      assert present[j] in Dedup(present);
    }
  }

  /** Everything left after selection and de-duplication was in `s` and
      passes. */
  lemma DedupFilterPasses<T(!new)>(s: seq<T>, p: T -> bool)
    ensures forall k :: 0 <= k < |Dedup(Filter(s, p))| ==> Dedup(Filter(s, p))[k] in s && p(Dedup(Filter(s, p))[k])
  {
    var present := Filter(s, p);
    var names := Dedup(present);
    forall k | 0 <= k < |names|
      ensures names[k] in s && p(names[k])
    {
      var j :| 0 <= j < |present| && present[j] == names[k];
    }
  }

  /** The position of the first occurrence of `x` in `s`. */
  function FirstIndex<T(==)>(s: seq<T>, x: T): (i: nat)
    requires x in s
    ensures i < |s| && s[i] == x && forall k :: 0 <= k < i ==> s[k] != x
  {
    if s[0] == x then 0 else 1 + FirstIndex(s[1..], x)
  }

  /** Appending to a sequence does not move a first occurrence. */
  lemma FirstIndexPrefix<T>(a: seq<T>, b: seq<T>, x: T)
    requires x in a
    ensures FirstIndex(a + b, x) == FirstIndex(a, x)
  {
    var i := FirstIndex(a, x);
    assert (a + b)[i] == x;
  }

  /** `Dedup` lists the distinct elements in the order of their first
      occurrence. */
  lemma {:induction false} DedupFirstOccurrence<T>(s: seq<T>)
    ensures forall i, j :: 0 <= i < j < |Dedup(s)| ==> FirstIndex(s, Dedup(s)[i]) < FirstIndex(s, Dedup(s)[j])
    decreases |s|
  {
    if |s| > 0 {
      var init := s[..|s| - 1];
      var last := s[|s| - 1];
      assert s == init + [last];
      var d := Dedup(init);
      DedupFirstOccurrence(init);
      forall x | x in d
        ensures FirstIndex(s, x) == FirstIndex(init, x)
      {
        FirstIndexPrefix(init, [last], x);
      }
      if last !in d {
        assert last !in init;
        assert FirstIndex(s, last) == |init|;
        assert Dedup(s) == d + [last];
      } else {
        assert Dedup(s) == d;
      }
    }
  }

  /** The distinct elements of `s`, each at the position of its first
      occurrence (the key order of a dict built by a comprehension). */
  function Dedup<T(==)>(s: seq<T>): (r: seq<T>)
    ensures forall i :: 0 <= i < |r| ==> r[i] in s
    ensures forall i :: 0 <= i < |s| ==> s[i] in r
    ensures NoDuplicates(r)
    ensures NoDuplicates(s) ==> r == s
    ensures |r| <= |s|
    decreases |s|
  {
    if |s| == 0 then []
    else
      var init := s[..|s| - 1];
      var last := s[|s| - 1];
      assert s == init + [last];
      var r := Dedup(init);
      if last in r then r else r + [last]
  }
}

=== FILE: stats.dfy ===
/** The median of a column, as pandas' `Series.median()` computes it once
    the NaN cells have been skipped: sort the values and take the middle
    one, or the mean of the two middle ones when the count is even. No
    values at all gives NaN, written here as `None`.
 */
module Stats {
  import opened Wrappers

  predicate Sorted(s: seq<real>) {
    forall i, j :: 0 <= i < j < |s| ==> s[i] <= s[j]
  }

  /** `x` placed into the sorted sequence `s` before the first larger element. */
  function Insert(x: real, s: seq<real>): (r: seq<real>)
    requires Sorted(s)
    ensures Sorted(r)
    ensures multiset(r) == multiset(s) + multiset{x}
    ensures |r| == |s| + 1
    decreases |s|
  {
    if |s| == 0 then [x]
    else if x <= s[0] then [x] + s
    else
      var rest := Insert(x, s[1..]);
      assert s == [s[0]] + s[1..];
      InsertBound(x, s, rest);
      ConsSorted(s[0], rest);
      [s[0]] + rest
  }

  /** What is inserted after the head of a sorted sequence is no smaller
      than that head. */
  lemma InsertBound(x: real, s: seq<real>, rest: seq<real>)
    requires |s| > 0 && Sorted(s) && s[0] < x
    requires multiset(rest) == multiset(s[1..]) + multiset{x}
    ensures forall k :: 0 <= k < |rest| ==> s[0] <= rest[k]
  {
    forall k | 0 <= k < |rest|
      ensures s[0] <= rest[k]
    {
      assert rest[k] in multiset(rest);
      if rest[k] != x {
        assert rest[k] in multiset(s[1..]);
        assert rest[k] in s[1..];
      }
    }
  }

  lemma ConsSorted(h: real, rest: seq<real>)
    requires Sorted(rest)
    requires forall k :: 0 <= k < |rest| ==> h <= rest[k]
    ensures Sorted([h] + rest)
  {
    var r := [h] + rest;
    forall i, j | 0 <= i < j < |r|
      ensures r[i] <= r[j]
    {
      assert r[j] == rest[j - 1];
      if i > 0 {
        assert r[i] == rest[i - 1];
      }
    }
  }

  /** Insertion sort: an ascending arrangement of exactly the given values. */
  function Sort(xs: seq<real>): (r: seq<real>)
    ensures Sorted(r)
    ensures multiset(r) == multiset(xs)
    ensures |r| == |xs|
    decreases |xs|
  {
    if |xs| == 0 then []
    else
      assert xs == [xs[0]] + xs[1..];
      Insert(xs[0], Sort(xs[1..]))
  }

  /** The number of values strictly below `v`. */
  function CountBelow(xs: seq<real>, v: real): (n: nat)
    ensures n <= |xs|
    decreases |xs|
  {
    if |xs| == 0 then 0 else (if xs[0] < v then 1 else 0) + CountBelow(xs[1..], v)
  }

  /** The number of values strictly above `v`. */
  function CountAbove(xs: seq<real>, v: real): (n: nat)
    ensures n <= |xs|
    decreases |xs|
  {
    if |xs| == 0 then 0 else (if xs[0] > v then 1 else 0) + CountAbove(xs[1..], v)
  }

  /** The middle value of a non-empty sequence, or the mean of its two
      middle values when its length is even. */
  function Middle(s: seq<real>): real
    requires |s| > 0
  {
    if |s| % 2 == 1 then s[|s| / 2] else (s[|s| / 2 - 1] + s[|s| / 2]) / 2.0
  }

  /** Of a sorted sequence, the middle lies between the two central values. */
  lemma MiddleBetween(s: seq<real>)
    requires Sorted(s) && |s| > 0
    ensures s[(|s| - 1) / 2] <= Middle(s) <= s[|s| / 2]
  {
    if |s| % 2 == 0 {
      assert s[|s| / 2 - 1] <= s[|s| / 2];
    }
  }

  /** The median of the values, `None` (NaN) when there are none. The result
      is never outside the range of the values, and for an odd count it is
      one of them. */
  function Median(xs: seq<real>): (m: Option<real>)
    ensures m.None? <==> |xs| == 0
    ensures m.Some? ==> exists i :: 0 <= i < |xs| && xs[i] <= m.value
    ensures m.Some? ==> exists j :: 0 <= j < |xs| && m.value <= xs[j]
    ensures m.Some? && |xs| % 2 == 1 ==> m.value in xs
  {
    if |xs| == 0 then None
    else
      var s := Sort(xs);
      MiddleBetween(s);
      assert s[(|s| - 1) / 2] in multiset(xs) && s[|s| / 2] in multiset(xs);
      Some(Middle(s))
  }

  lemma {:induction false} CountBelowConcat(a: seq<real>, b: seq<real>, v: real)
    ensures CountBelow(a + b, v) == CountBelow(a, v) + CountBelow(b, v)
    decreases |a|
  {
    if |a| == 0 {
      assert a + b == b;
    } else {
      assert (a + b)[1..] == a[1..] + b;
      CountBelowConcat(a[1..], b, v);
    }
  }

  lemma {:induction false} CountAboveConcat(a: seq<real>, b: seq<real>, v: real)
    ensures CountAbove(a + b, v) == CountAbove(a, v) + CountAbove(b, v)
    decreases |a|
  {
    if |a| == 0 {
      assert a + b == b;
    } else {
      assert (a + b)[1..] == a[1..] + b;
      CountAboveConcat(a[1..], b, v);
    }
  }

  /** The counts depend only on which values occur and how often. */
  lemma {:induction false} CountInsert(x: real, s: seq<real>, v: real)
    requires Sorted(s)
    ensures CountBelow(Insert(x, s), v) == CountBelow([x], v) + CountBelow(s, v)
    ensures CountAbove(Insert(x, s), v) == CountAbove([x], v) + CountAbove(s, v)
    decreases |s|
  {
    if |s| > 0 && x > s[0] {
      CountInsert(x, s[1..], v);
    }
  }

  lemma {:induction false} CountSort(xs: seq<real>, v: real)
    ensures CountBelow(Sort(xs), v) == CountBelow(xs, v)
    ensures CountAbove(Sort(xs), v) == CountAbove(xs, v)
    decreases |xs|
  {
    if |xs| > 0 {
      CountSort(xs[1..], v);
      CountInsert(xs[0], Sort(xs[1..]), v);
    }
  }

  /** In `s`, nothing from position `k` on lies below `v`, so at most `k`
      values do. */
  lemma BelowBoundedByPrefix(s: seq<real>, k: nat, v: real)
    requires k <= |s|
    requires forall i :: k <= i < |s| ==> v <= s[i]
    ensures CountBelow(s, v) <= k
  {
    assert s == s[..k] + s[k..];
    CountBelowConcat(s[..k], s[k..], v);
    NoneBelow(s[k..], v);
  }

  lemma {:induction false} NoneBelow(s: seq<real>, v: real)
    requires forall i :: 0 <= i < |s| ==> v <= s[i]
    ensures CountBelow(s, v) == 0
    decreases |s|
  {
    if |s| > 0 {
      NoneBelow(s[1..], v);
    }
  }

  /** In `s`, nothing before position `k` lies above `v`, so at most
      `|s| - k` values do. */
  lemma AboveBoundedBySuffix(s: seq<real>, k: nat, v: real)
    requires k <= |s|
    requires forall i :: 0 <= i < k ==> s[i] <= v
    ensures CountAbove(s, v) <= |s| - k
  {
    assert s == s[..k] + s[k..];
    CountAboveConcat(s[..k], s[k..], v);
    NoneAbove(s[..k], v);
  }

  lemma {:induction false} NoneAbove(s: seq<real>, v: real)
    requires forall i :: 0 <= i < |s| ==> s[i] <= v
    ensures CountAbove(s, v) == 0
    decreases |s|
  {
    if |s| > 0 {
      NoneAbove(s[1..], v);
    }
  }

  /** The defining property of a median, independent of how it is computed:
      at most half of the values lie strictly below it and at most half
      strictly above it. */
  lemma MedianBalanced(xs: seq<real>)
    requires |xs| > 0
    ensures 2 * CountBelow(xs, Median(xs).value) <= |xs|
    ensures 2 * CountAbove(xs, Median(xs).value) <= |xs|
  {
    var s := Sort(xs);
    var m := Middle(s);
    assert Median(xs).value == m;
    CountSort(xs, m);
    SortedBelowMiddle(s);
    SortedAboveMiddle(s);
  }

  lemma SortedBelowMiddle(s: seq<real>)
    requires Sorted(s) && |s| > 0
    ensures 2 * CountBelow(s, Middle(s)) <= |s|
  {
    var n := |s|;
    var m := Middle(s);
    MiddleBetween(s);
    forall i | n / 2 <= i < n
      ensures m <= s[i]
    {
      assert s[n / 2] <= s[i];
    }
    BelowBoundedByPrefix(s, n / 2, m);
  }

  lemma SortedAboveMiddle(s: seq<real>)
    requires Sorted(s) && |s| > 0
    ensures 2 * CountAbove(s, Middle(s)) <= |s|
  {
    var n := |s|;
    var m := Middle(s);
    var k := (n - 1) / 2;
    MiddleBetween(s);
    forall i | 0 <= i <= k
      ensures s[i] <= m
    {
      assert i == k || s[i] <= s[k];
    }
    AboveBoundedBySuffix(s, k + 1, m);
  }

  /** Two ascending arrangements of the same values are the same sequence. */
  lemma {:induction false} SortedUnique(a: seq<real>, b: seq<real>)
    requires Sorted(a) && Sorted(b)
    requires multiset(a) == multiset(b)
    ensures a == b
    decreases |a|
  {
    assert |a| == |multiset(a)| == |multiset(b)| == |b|;
    if |a| > 0 {
      SortedHeads(a, b);
      SortedTail(a);
      SortedTail(b);
      SortedUnique(a[1..], b[1..]);
    }
  }

  /** Dropping the first (smallest) value of a sorted sequence. */
  lemma SortedTail(a: seq<real>)
    requires Sorted(a) && |a| > 0
    ensures Sorted(a[1..])
    ensures multiset(a[1..]) == multiset(a) - multiset{a[0]}
  {
    assert a == [a[0]] + a[1..];
  }

  /** Sorted arrangements of the same values start with the same value. */
  lemma SortedHeads(a: seq<real>, b: seq<real>)
    requires Sorted(a) && Sorted(b) && |a| > 0 && |b| > 0
    requires multiset(a) == multiset(b)
    ensures a[0] == b[0]
  {
    assert a[0] in multiset(b) && b[0] in multiset(a);
    var j :| 0 <= j < |b| && b[j] == a[0];
    var k :| 0 <= k < |a| && a[k] == b[0];
    assert b[0] <= b[j] && a[0] <= a[k];
  }

  /** The median does not depend on the order of the values. */
  lemma MedianPermutation(xs: seq<real>, ys: seq<real>)
    requires multiset(xs) == multiset(ys)
    ensures Median(xs) == Median(ys)
  {
    assert |xs| == |multiset(xs)| == |ys|;
    SortedUnique(Sort(xs), Sort(ys));
  }

  /** Worked cases: an even count averages the middle pair, an odd count
      takes the middle value. */
  lemma MedianExamples()
    ensures Median([10.0, 6.0]) == Some(8.0)
    ensures Median([10.0, 4.0, 6.0]) == Some(6.0)
    ensures Median([]) == None
  {
    SortPairExample();
    assert Median([10.0, 6.0]) == Some(Middle([6.0, 10.0]));
    assert Middle([6.0, 10.0]) == 8.0;
    SortTripleExample();
    assert Median([10.0, 4.0, 6.0]) == Some(Middle([4.0, 6.0, 10.0]));
    assert Middle([4.0, 6.0, 10.0]) == 6.0;
  }

  lemma SortPairExample()
    ensures Sort([10.0, 6.0]) == [6.0, 10.0]
  {
    assert [10.0, 6.0][1..] == [6.0];
    assert Sort([6.0]) == [6.0];
    assert Insert(10.0, [6.0]) == [6.0, 10.0] by {
      assert [6.0][1..] == [];
    }
  }

  lemma SortTripleExample()
    ensures Sort([10.0, 4.0, 6.0]) == [4.0, 6.0, 10.0]
  {
    assert [10.0, 4.0, 6.0][1..] == [4.0, 6.0];
    assert [4.0, 6.0][1..] == [6.0];
    assert Sort([6.0]) == [6.0];
    assert Sort([4.0, 6.0]) == [4.0, 6.0];
    assert Insert(10.0, [4.0, 6.0]) == [4.0, 6.0, 10.0] by {
      assert [4.0, 6.0][1..] == [6.0];
      assert [6.0][1..] == [];
      assert Insert(10.0, [6.0]) == [6.0, 10.0];
    }
  }
}

=== FILE: text.dfy ===
/** String operations the tables rely on: decimal rendering and parsing of
    integers (Python's `str(int)` and `int(str)`), ASCII upper-casing,
    literal substring search, Python's code-point ordering of strings,
    and joining/splitting on a one-character separator.
 */
module Text {
  import opened Wrappers

  predicate IsDigit(c: char) {
    '0' <= c <= '9'
  }

  predicate AllDigits(s: string) {
    forall i :: 0 <= i < |s| ==> IsDigit(s[i])
  }

  function DigitChar(d: nat): (c: char)
    requires d < 10
    ensures IsDigit(c)
  {
    ('0' as int + d) as char
  }

  function DigitValue(c: char): (d: nat)
    requires IsDigit(c)
    ensures d < 10 && DigitChar(d) == c
  {
    c as int - '0' as int
  }

  /** The decimal digits of `n`, most significant first, without leading
      zeros. */
  function NatToString(n: nat): (s: string)
    ensures |s| >= 1
    ensures AllDigits(s)
    ensures s[0] == '0' ==> n == 0
    decreases n
  {
    if n < 10 then [DigitChar(n)]
    else NatToString(n / 10) + [DigitChar(n % 10)]
  }

  /** The number a string of decimal digits denotes. */
  function DigitsValue(s: string): nat
    requires AllDigits(s)
    decreases |s|
  {
    if |s| == 0 then 0
    else DigitsValue(s[..|s| - 1]) * 10 + DigitValue(s[|s| - 1])
  }

  /** Rendering a natural number in decimal and reading it back is the
      identity. */
  lemma {:induction false} DigitsRoundTrip(n: nat)
    ensures DigitsValue(NatToString(n)) == n
    decreases n
  {
    if n >= 10 {
      var s := NatToString(n);
      assert s[..|s| - 1] == NatToString(n / 10);
      DigitsRoundTrip(n / 10);
    }
  }

  /** `str(i)` for a Python int: a minus sign before the digits when negative. */
  function IntToString(i: int): (s: string)
    ensures |s| >= 1
  {
    if i < 0 then "-" + NatToString(-i) else NatToString(i)
  }

  /** Python's `int(s)`: an optional sign followed by one or more decimal
      digits; anything else is a `ValueError`, written `None`. */
  function ParseInt(s: string): (r: Option<int>)
    ensures r.Some? <==>
      (|s| > 0 && AllDigits(s)) || (|s| > 1 && (s[0] == '-' || s[0] == '+') && AllDigits(s[1..]))
  {
    if |s| > 1 && (s[0] == '-' || s[0] == '+') && AllDigits(s[1..]) then
      var v: int := DigitsValue(s[1..]);
      Some(if s[0] == '-' then -v else v)
    else if |s| > 0 && AllDigits(s) then Some(DigitsValue(s))
    else None
  }

  /** `int(str(i)) == i`. */
  lemma IntRoundTrip(i: int)
    ensures ParseInt(IntToString(i)) == Some(i)
  {
    var s := IntToString(i);
    if i < 0 {
      var d := NatToString(-i);
      assert s == "-" + d;
      assert s[1..] == d;
      DigitsRoundTrip(-i);
      assert |s| > 1 && s[0] == '-' && AllDigits(s[1..]);
    } else {
      var d := NatToString(i);
      assert s == d;
      DigitsRoundTrip(i);
      assert IsDigit(s[0]);
      assert |s| > 0 && AllDigits(s);
    }
  }

  /** Dropping the last digit of a number drops the last character of its
      decimal string. */
  lemma DropLastDigit(n: nat)
    requires n >= 10
    ensures NatToString(n) == NatToString(n / 10) + [DigitChar(n % 10)]
  {
  }

  /** The decimal string of `n / 10000` is the string of `n` without its last
      four characters. */
  lemma {:induction false} DropFourDigits(n: nat)
    requires n >= 10000
    ensures |NatToString(n)| == |NatToString(n / 10000)| + 4
    ensures NatToString(n)[..|NatToString(n / 10000)|] == NatToString(n / 10000)
  {
    var a := NatToString(n / 10);
    var b := NatToString(n / 100);
    var c := NatToString(n / 1000);
    var d := NatToString(n / 10000);
    assert n / 10 / 10 == n / 100 && n / 100 / 10 == n / 1000 && n / 1000 / 10 == n / 10000;
    DropLastDigit(n);
    DropLastDigit(n / 10);
    DropLastDigit(n / 100);
    DropLastDigit(n / 1000);
    assert NatToString(n) == d + [DigitChar(n / 1000 % 10), DigitChar(n / 100 % 10), DigitChar(n / 10 % 10), DigitChar(n % 10)];
  }

  /** A number has `k + 1` decimal digits exactly when it lies in
      [10^k, 10^(k+1)). */
  function Pow10(k: nat): (p: nat)
    ensures p >= 1
  {
    if k == 0 then 1 else 10 * Pow10(k - 1)
  }

  lemma {:induction false} DigitCount(n: nat, k: nat)
    requires (k == 0 || Pow10(k) <= n) && n < Pow10(k + 1)
    ensures |NatToString(n)| == k + 1
    decreases k
  {
    if k > 0 {
      assert Pow10(k) == 10 * Pow10(k - 1);
      assert Pow10(k + 1) == 10 * Pow10(k);
      assert n / 10 < Pow10(k);
      assert k - 1 == 0 || Pow10(k - 1) <= n / 10;
      DigitCount(n / 10, k - 1);
    }
  }

  function UpperChar(c: char): char {
    if 'a' <= c <= 'z' then (c as int - 32) as char else c
  }

  /** ASCII upper-casing, letter by letter. */
  function Upper(s: string): (r: string)
    ensures |r| == |s|
    ensures forall i :: 0 <= i < |s| ==> r[i] == UpperChar(s[i])
    ensures forall i :: 0 <= i < |r| ==> !('a' <= r[i] <= 'z')
  {
    seq(|s|, i requires 0 <= i < |s| => UpperChar(s[i]))
  }

  /** `needle` occurs in `hay` starting at position `i`. */
  predicate OccursAt(needle: string, hay: string, i: int) {
    0 <= i && i + |needle| <= |hay| && hay[i..i + |needle|] == needle
  }

  /** Python's `needle in hay` for strings: a literal substring test. The
      empty string occurs in every string. */
  function Contains(hay: string, needle: string): (b: bool)
    ensures b <==> exists i :: OccursAt(needle, hay, i)
    decreases |hay|
  {
    if |needle| > |hay| then false
    else if hay[..|needle|] == needle then
      assert OccursAt(needle, hay, 0);
      true
    else
      var rest := Contains(hay[1..], needle);
      assert forall i :: OccursAt(needle, hay[1..], i) ==> OccursAt(needle, hay, i + 1) by {
        forall i | OccursAt(needle, hay[1..], i)
          ensures OccursAt(needle, hay, i + 1)
        {
          assert hay[1..][i..i + |needle|] == hay[i + 1..i + 1 + |needle|];
        }
      }
      assert forall i :: OccursAt(needle, hay, i) ==> i > 0 && OccursAt(needle, hay[1..], i - 1) by {
        forall i | OccursAt(needle, hay, i)
          ensures i > 0 && OccursAt(needle, hay[1..], i - 1)
        {
          assert hay[1..][i - 1..i - 1 + |needle|] == hay[i..i + |needle|];
        }
      }
      rest
  }

  /** Python's `a < b` on strings: code-point lexicographic order, a proper
      prefix coming first. */
  predicate LexLess(a: string, b: string)
    decreases |a|
  {
    if |a| == 0 then |b| > 0
    else if |b| == 0 then false
    else if a[0] != b[0] then a[0] < b[0]
    else LexLess(a[1..], b[1..])
  }

  lemma {:induction false} LexIrreflexive(a: string)
    ensures !LexLess(a, a)
    decreases |a|
  {
    if |a| > 0 {
      LexIrreflexive(a[1..]);
    }
  }

  lemma {:induction false} LexTransitive(a: string, b: string, c: string)
    requires LexLess(a, b) && LexLess(b, c)
    ensures LexLess(a, c)
    decreases |a|
  {
    if |a| > 0 && |b| > 0 && |c| > 0 && a[0] == b[0] && b[0] == c[0] {
      LexTransitive(a[1..], b[1..], c[1..]);
    }
  }

  /** Any two different strings are ordered one way and not the other. */
  lemma {:induction false} LexTotal(a: string, b: string)
    ensures a != b ==> (LexLess(a, b) <==> !LexLess(b, a))
    ensures a == b ==> !LexLess(a, b)
    decreases |a|
  {
    if a == b {
      LexIrreflexive(a);
    } else if |a| > 0 && |b| > 0 && a[0] == b[0] {
      assert a == [a[0]] + a[1..] && b == [b[0]] + b[1..];
      LexTotal(a[1..], b[1..]);
    }
  }

  /** Strictly ascending: sorted and free of duplicates. */
  predicate StrictlySorted(s: seq<string>) {
    forall i, j :: 0 <= i < j < |s| ==> LexLess(s[i], s[j])
  }

  /** `x` placed into the strictly ascending `s`, unless it is already there. */
  function InsertUnique(x: string, s: seq<string>): (r: seq<string>)
    requires StrictlySorted(s)
    ensures StrictlySorted(r)
    ensures x in r
    ensures forall i :: 0 <= i < |s| ==> s[i] in r
    ensures forall i :: 0 <= i < |r| ==> r[i] == x || r[i] in s
    decreases |s|
  {
    if |s| == 0 then [x]
    else if x == s[0] then s
    else if LexLess(x, s[0]) then
      assert forall j :: 0 <= j < |s| ==> LexLess(x, s[j]) by {
        forall j | 0 < j < |s|
          ensures LexLess(x, s[j])
        {
          LexTransitive(x, s[0], s[j]);
        }
      }
      [x] + s
    else
      LexTotal(x, s[0]);
      var rest := InsertUnique(x, s[1..]);
      assert forall i :: 0 <= i < |rest| ==> LexLess(s[0], rest[i]);
      [s[0]] + rest
  }

  /** Python's `sorted(set(xs))`: the distinct values in ascending order. */
  function SortUnique(xs: seq<string>): (r: seq<string>)
    ensures StrictlySorted(r)
    ensures forall i :: 0 <= i < |r| ==> r[i] in xs
    ensures forall i :: 0 <= i < |xs| ==> xs[i] in r
    decreases |xs|
  {
    if |xs| == 0 then []
    else
      var rest := SortUnique(xs[1..]);
      assert forall i :: 1 <= i < |xs| ==> xs[i] == xs[1..][i - 1];
      InsertUnique(xs[0], rest)
  }

  /** A strictly ascending sequence is determined by the values it holds. */
  lemma {:induction false} StrictlySortedUnique(a: seq<string>, b: seq<string>)
    requires StrictlySorted(a) && StrictlySorted(b)
    requires forall i :: 0 <= i < |a| ==> a[i] in b
    requires forall i :: 0 <= i < |b| ==> b[i] in a
    ensures a == b
    decreases |a|
  {
    assert |a| > 0 ==> a[0] in b;
    assert |b| > 0 ==> b[0] in a;
    if |a| > 0 && |b| > 0 {
      if a[0] != b[0] {
        var j :| 0 <= j < |b| && b[j] == a[0];
        var k :| 0 <= k < |a| && a[k] == b[0];
        assert j > 0 && k > 0;
        assert LexLess(b[0], a[0]) && LexLess(a[0], b[0]);
        LexTotal(a[0], b[0]);
        assert false;
      }
      forall i | 0 <= i < |a| - 1
        ensures a[1..][i] in b[1..]
      {
        var j :| 0 <= j < |b| && b[j] == a[i + 1];
        assert LexLess(a[0], a[i + 1]);
        if j == 0 {
          LexIrreflexive(a[0]);
          assert false;
        }
        assert b[1..][j - 1] == a[i + 1];
      }
      forall i | 0 <= i < |b| - 1
        ensures b[1..][i] in a[1..]
      {
        var j :| 0 <= j < |a| && a[j] == b[i + 1];
        assert LexLess(b[0], b[i + 1]);
        if j == 0 {
          LexIrreflexive(b[0]);
          assert false;
        }
        assert a[1..][j - 1] == b[i + 1];
      }
      StrictlySortedUnique(a[1..], b[1..]);
    }
  }

  /** Python's `sep.join(xs)`. */
  function Join(xs: seq<string>, sep: char): string
    decreases |xs|
  {
    if |xs| == 0 then ""
    else if |xs| == 1 then xs[0]
    else xs[0] + [sep] + Join(xs[1..], sep)
  }

  /** Python's `s.split(sep)`: the pieces between separators; always at least
      one piece. */
  function Split(s: string, sep: char): (r: seq<string>)
    ensures |r| >= 1
    decreases |s|
  {
    if |s| == 0 then [""]
    else if s[0] == sep then [""] + Split(s[1..], sep)
    else
      var rest := Split(s[1..], sep);
      [[s[0]] + rest[0]] + rest[1..]
  }

  /** A piece without separators splits to itself, and splitting stops at the
      first separator after it. */
  lemma {:induction false} SplitPiece(x: string, rest: string, sep: char)
    requires sep !in x
    ensures Split(x + rest, sep) == [x + Split(rest, sep)[0]] + Split(rest, sep)[1..]
    decreases |x|
  {
    if |x| > 0 {
      assert (x + rest)[1..] == x[1..] + rest;
      SplitPiece(x[1..], rest, sep);
      assert [x[0]] + (x[1..] + Split(rest, sep)[0]) == x + Split(rest, sep)[0];
    } else {
      var r := Split(rest, sep);
      assert x + rest == rest;
      assert x + r[0] == r[0];
      assert [r[0]] + r[1..] == r;
    }
  }

  /** Splitting a joined list gives the list back, provided there is at least
      one piece and no piece contains the separator. */
  lemma {:induction false} SplitJoin(xs: seq<string>, sep: char)
    requires |xs| >= 1
    requires forall i :: 0 <= i < |xs| ==> sep !in xs[i]
    ensures Split(Join(xs, sep), sep) == xs
    decreases |xs|
  {
    if |xs| == 1 {
      SplitPiece(xs[0], "", sep);
      assert xs[0] + "" == xs[0];
    } else {
      var tail := Join(xs[1..], sep);
      SplitJoin(xs[1..], sep);
      assert Join(xs, sep) == xs[0] + ([sep] + tail);
      SplitPiece(xs[0], [sep] + tail, sep);
      assert ([sep] + tail)[1..] == tail;
      assert xs[0] + "" == xs[0];
      assert xs == [xs[0]] + xs[1..];
    }
  }
}

=== FILE: wrappers.dfy ===
/** Missing values and failing computations.

    `Option` stands for a pandas cell that may hold NaN (`None`), and
    `Result` for a call that either returns a value or raises.
 */
module Wrappers {

  datatype Option<+T> = None | Some(value: T) {

    /** The held value, or `default` when the value is missing. */
    function GetOr(default: T): T {
      match this
      case Some(v) => v
      case None => default
    }
  }

  datatype Result<+T, +E> = Success(value: T) | Failure(error: E)
}
